=== FILE: README.md ===
# Horus audit pipeline — a Dafny model

Horus audits a Linux host against a policy of rules. A policy file names a
category and a list of rules. Each rule names a registered *control* and the
parameters to give it. The engine runs every rule's control in order. A
control inspects the host only through an *executor*, which runs an argument
vector without a shell and reports `{stdout, stderr, code}`. Each control
returns one result of five kinds: PASSED, FAILED, WARNING, SKIPPED or ERROR.
The report counts the results per status.

This project models that pipeline as pure functions:

- `Outcomes`, `Values`, `Text`: Python's exceptions as an explicit
  `Outcome = Ok(value) | Fault(kind, msg)`, parsed YAML values and keyword
  parameters as a `Value` datatype, and the `str` operations the code relies
  on. These operations follow Python's semantics: `strip`, `lower`,
  `capitalize`, `rstrip("\n")`, `splitlines`, `split(None, n)`, `split(",")`,
  `in` and `sorted`.
- `Results`, `Rules`: the result record with its five constructors, and
  rules and policies.
- `Executors`: the local executor's front end. It validates the argument
  vector, checks the basename allowlist, resolves the executable on the
  search path, handles the timeout sentinel and trims the output. Search-path
  lookup and the process launch are a `Host` oracle. Controls see an
  executor as a function from argument vector to outcome.
- `Registry`: the control table, with registration, lookup, membership and
  the sorted listing.
- `Engine`: `run_policy` and `_execute_rule`. A control's evaluation also
  records the commands it sent, so "nothing runs" can be stated.
- `Reports`: `build_report` without its timestamp.
- `Filesystem`: the two reference controls, `filesystem.module_disabled` and
  `filesystem.partition`, and the registry they populate.
- `PolicyLoader`: the loader's structural checks on an already-parsed
  document.
- `OsInfo`: how the host facts are derived from the distribution and
  `uname` readings.
- `Audit`: properties that span modules. These are the engine running the
  built-in controls, the module control meeting the local executor, and the
  unit tests' scenarios.

Some behaviours of the code are easy to miss; the model has them as the
code does:

- `rstrip("\n")` removes every trailing line feed
  (horus_audit/core/executor.py:74, 82-83).
- The engine always passes `os_info=` (horus_audit/core/engine.py:56-62).
  The two built-in controls do not declare that keyword
  (horus_audit/controls/filesystem.py:7-13, 88-94). So a rule bound to one
  of them always ends as an ERROR result, with the message
  "Check_filesystem_module_disabled() got an unexpected keyword argument
  'os_info'" (or the partition one). `Audit.BuiltinControlsFailThroughEngine`
  states this.
- `Rule` is declared with a `title` field (horus_audit/core/rule.py:8).
  The engine and the loader both read `control`, so the model's `Rule` is
  `{rule_id, control, params}`. The loader test
  tests/unit/core/test_yaml_loader.py:11-39 writes `title:` instead of
  `control:`. Against the loader as written, that document is rejected with
  "No rules[0].control" (`PolicyLoader.ParseRule`).
- The unit tests' mock executor gives one constant answer to every command.
  This is why the "loaded" test ends in "not disabled"
  (`Audit.ConstantPathIsNotDisabled`).
- The options field of a mount line is everything after the type, so
  whitespace inside it stays part of the last option
  (horus_audit/controls/filesystem.py:147, `Filesystem.MountFieldsOfLine`).

## Model

| member | source | states |
|---|---|---|
| Results.PassedResult | horus_audit/core/result.py:12-14 | status PASSED (literal "PASSED"); rule id, control and message copied unchanged |
| Results.FailedResult | horus_audit/core/result.py:16-18 | status FAILED (literal "FAILED"); the other fields copied unchanged |
| Results.WarningResult | horus_audit/core/result.py:20-22 | status WARNING (literal "WARNING"); the other fields copied unchanged |
| Results.SkippedResult | horus_audit/core/result.py:24-26 | status SKIPPED (literal "SKIPPED"); the other fields copied unchanged |
| Results.ErrorResult | horus_audit/core/result.py:28-30 | status ERROR (literal "ERROR"); the other fields copied unchanged |
| Results.ParseStatus | horus_audit/core/result.py:9 | a text names a status exactly when it is one of the five literals, and that status is written as that text |
| Results.StatusLiteralRoundTrip | horus_audit/core/result.py:9 | every status is written as one of the five literals; distinct statuses have distinct literals; the literal reads back as the status |
| Registry.Register | horus_audit/core/registry.py:13-19 | a fresh name is bound to the function, which is returned; a bound name raises ValueError "Control registered: <name>" and the registry is unchanged; no other binding changes |
| Registry.Get | horus_audit/core/registry.py:23-27 | succeeds exactly for a bound name and returns its function; otherwise KeyError "Unknown control: <name>" |
| Registry.Has | horus_audit/core/registry.py:29-30 | `has` holds exactly when `get` would succeed |
| Registry.RegisterThenGet | horus_audit/core/registry.py:13-30 | after registering a fresh name, `has` holds and `get` returns exactly that function; lookups of other names are as before |
| Registry.DuplicateKeepsFirst | horus_audit/core/registry.py:15-16 | a second registration under a bound name fails, and `get` still returns the first function |
| Registry.Insert | horus_audit/core/registry.py:33 | inserting a new name into a strictly sorted list keeps it strictly sorted and adds exactly that name |
| Registry.ListControls | horus_audit/core/registry.py:32-33 | the listing is strictly ascending (so no duplicates), holds exactly the bound names, and has one entry per binding |
| Text.Below | horus_audit/core/registry.py:33 | `a < b` on texts holds exactly when, after their longest common prefix, `a` has ended and `b` has not, or `a`'s next code point is the smaller |
| Text.BelowTotal | horus_audit/core/registry.py:33 | the code-point order `sorted` uses is total on texts |
| Text.BelowTransitive | horus_audit/core/registry.py:33 | that order is transitive |
| Text.BelowIrreflexive | horus_audit/core/registry.py:33 | that order is strict |
| Engine.Invoke | horus_audit/core/engine.py:56-62 | a control that declares `os_info` gets the call; one that does not raises TypeError "<qualname>() got an unexpected keyword argument 'os_info'" before its body runs, and no command is issued |
| Engine.ExecuteRule | horus_audit/core/engine.py:45-69 | an unknown control gives ERROR "Unknown control: <control>" with the rule's id and no command; a known control gets this rule's id, control and params and the shared executor and os_info; its returned result passes through verbatim; an exception becomes ERROR with the capitalized exception text |
| Engine.RunRules | horus_audit/core/engine.py:37-42 | exactly one result per rule, and result i is rule i's result |
| Engine.Backend | horus_audit/core/engine.py:34 | the given executor is used as it is; without one, the run uses a local executor with no allowlist and the default timeout |
| Engine.RunPolicy | horus_audit/core/engine.py:16-42 | one result per rule, in order, all with the same executor and os_info; a missing executor becomes the local executor with no allowlist |
| Engine.RunRulesConcat | horus_audit/core/engine.py:39-40 | running two rule lists one after the other gives the results of running them together: rules do not influence each other, and a failing rule does not stop later ones |
| Engine.ResultDependsOnlyOnRule | horus_audit/core/engine.py:45-69 | the same rule at any position of any policy gets the same result |
| Engine.EngineErrorsNameTheirRule | horus_audit/core/engine.py:46-69 | every result is either an ERROR that names its rule and control, or exactly what the control returned |
| Engine.UnknownControlIsError | horus_audit/core/engine.py:46-51 | an unregistered control gives ERROR "Unknown control: <control>" and issues no command |
| Reports.BuildReport | horus_audit/core/report.py:20-43 | the summary has exactly the five status keys; each counts the results with that status; the counts sum to the number of results; results, category and os_info pass through unchanged |
| Reports.CountsPartition | horus_audit/core/report.py:34-35 | every result is counted under exactly one status |
| Executors.CheckArgv | horus_audit/core/executor.py:40-47 | an argument vector passes exactly when it is a non-empty list of non-empty texts; otherwise ExecutorError "Command must be a list", "argv is empty" or "argv contains empty values", in that order |
| Text.IsAbsolute | horus_audit/core/executor.py:54 | a path is absolute exactly when it starts with "/" |
| Executors.Run | horus_audit/core/executor.py:34-85 | a malformed vector is refused first; with an allowlist, a basename outside it raises "Command not allowed: <basename>" before resolution; an absolute executable is launched as given; a relative one is looked up, raising "Command not found: <argv0>" when the lookup finds nothing, else the resolved path replaces element 0 of the caller's list before the launch |
| Executors.InvalidArgvNeverReachesHost | horus_audit/core/executor.py:40-47 | a refused vector gets the same fault whatever the allowlist and host, so nothing is resolved or launched, and the caller's list is untouched |
| Executors.AllowlistPrecedesResolution | horus_audit/core/executor.py:49-58 | an executable outside the allowlist gets "Command not allowed" from every host, before any lookup |
| Executors.NoAllowlistAdmitsAll | horus_audit/core/executor.py:51 | with no allowlist, the call behaves as with an allowlist that admits the executable |
| Executors.TimeoutIsAnAnswer | horus_audit/core/executor.py:71-76 | a launched command that times out gives empty stdout and exit status 124, not an exception |
| Executors.Finish | horus_audit/core/executor.py:71-85 | only a failed launch raises, as ExecutorError "Execution failed: <text>"; a completed process keeps its exit status; a timeout gives empty stdout, status 124, and as stderr the capitalised exception text minus exactly its trailing line feeds |
| Executors.CompletedOutput | horus_audit/core/executor.py:81-85 | on completion, stdout and stderr are each the captured text (a missing stream is empty) minus exactly its trailing line feeds; the exit status is the process's |
| Executors.RunText | horus_audit/core/executor.py:87-94 | the call is refused with "argv contains empty values" exactly when the executable or an argument is empty or not text |
| Executors.RunTextIsRun | horus_audit/core/executor.py:87-94 | `run_text(e, *args)` answers exactly as `run([e, *args])` |
| Text.Strip | horus_audit/controls/filesystem.py:21-28 | `strip()` gives the empty text exactly for blank input; otherwise the result neither starts nor ends with whitespace and is the input minus a blank prefix and a blank suffix |
| Text.Basename | horus_audit/core/executor.py:49 | the basename is the suffix of the path after its last '/' (the whole path when it has none) |
| Text.SplitWs | horus_audit/controls/filesystem.py:147 | `split(None, n)` yields non-empty fields, at most n + 1 of them |
| Text.SplitWsField | horus_audit/controls/filesystem.py:147 | a blank run, then a field without whitespace that ends at whitespace or at the end, splits into that field followed by the split of the remainder with one split fewer |
| Text.SplitWsEmpty | horus_audit/controls/filesystem.py:147 | `split(None, n)` yields no field exactly when the text is blank |
| Text.SplitWsRest | horus_audit/controls/filesystem.py:147 | once no splits remain, the text after the leading blank run is one field, whitespace inside it included |
| Text.SplitWsTwo | horus_audit/controls/filesystem.py:147 | `split(None, 1)` of blank run, field, blank run, rest gives back the field and the rest |
| Text.SplitWsThree | horus_audit/controls/filesystem.py:147 | `split(None, 2)` of field, blank run, field, blank run, rest gives back the two fields and the rest |
| Text.StripTrimmed | horus_audit/controls/filesystem.py:147 | `strip()` removes exactly the blank runs around a text whose own ends are not whitespace |
| Text.SplitLines | horus_audit/controls/filesystem.py:48 | `splitlines()` yields lines without line boundaries, and none at all exactly for the empty text |
| Text.SplitLinesJoin | horus_audit/controls/filesystem.py:63 | lines without boundaries, the last not empty, joined with line feeds split back into themselves |
| Text.SplitLinesSingle | horus_audit/controls/filesystem.py:48 | a non-empty text without line boundaries is one line |
| Text.SplitLinesStep | horus_audit/controls/filesystem.py:48 | a line ended by any one-character boundary (line feed, vertical tab, form feed, carriage return not followed by a line feed, the separators 0x1c-0x1e, 0x85, U+2028, U+2029) is split off and the rest is split alone; a final boundary adds no empty line |
| Text.SplitLinesCrLf | horus_audit/controls/filesystem.py:63 | "\r\n" ends one line as a single boundary |
| Text.Lower | horus_audit/controls/filesystem.py:64 | `lower()` maps each capital letter to its small letter and leaves every other character unchanged |
| Text.Capitalize | horus_audit/core/engine.py:68 | `capitalize()` upper-cases the first character and lower-cases the rest |
| Text.RStripNewlines | horus_audit/core/executor.py:82-83 | the result is a prefix of the input, everything removed is a line feed, and the result does not end in one |
| OsInfo.DetectOs | horus_audit/core/os_info.py:32-52 | id lower-cased then trimmed; name and version trimmed; major version empty for an empty version, else the library's, else the version's text before its first '.'; with an empty `like` the family is the id, else the first whitespace token of `like`; a whitespace-only `like` raises IndexError; kernel, architecture and hostname copied from uname |
| OsInfo.MajorVersion | horus_audit/core/os_info.py:36 | empty for an empty version; else the library's major version when it has one; else a prefix of the version without '.', ending at the first '.' |
| OsInfo.Family | horus_audit/core/os_info.py:39-45 | the id for an empty `like`; else the first whitespace-separated token of `like`; IndexError exactly when `like` is non-empty whitespace |
| OsInfo.FirstTokenOccurs | horus_audit/core/os_info.py:45 | the first field of `split()` is the first run of non-whitespace of the text, preceded only by whitespace and followed by whitespace or the end |
| Values.Lookup | horus_audit/controls/filesystem.py:19 | `params.get(key)`: the bound value for a present key, `None` for an absent one |
| Filesystem.TextParam | horus_audit/controls/filesystem.py:19-28 | a parameter is rejected exactly when it is not text or is blank; otherwise it is trimmed and lower-cased, and non-empty |
| Filesystem.ListParam | horus_audit/controls/filesystem.py:112-126 | a parameter is rejected exactly when it is not a list or is empty |
| Filesystem.FirstUnhashable | horus_audit/controls/filesystem.py:121-133 | building a set raises TypeError exactly when some element is a list or a mapping, and the reported type name is that of the first such element |
| Filesystem.ScanLoaded | horus_audit/controls/filesystem.py:47-54 | the listing shows the module exactly when some line starts with "<module> " |
| Filesystem.ScanDirectives | horus_audit/controls/filesystem.py:59-71 | the install flag is raised exactly when some lower-cased line holds "install <module>" and "/bin/true" or "/bin/false"; the blacklist flag exactly when some line holds "blacklist <module>" |
| Filesystem.ModuleCheck | horus_audit/controls/filesystem.py:6-84 | a bad `module` gives ERROR "params.module is empty" before any command; "does not exist" exactly when `find` prints blank output, after `find` alone; "is loaded" exactly when it exists and the listing succeeds and shows it, after `find` and `lsmod`; a failing listing also stops after those two; "is disabled" exactly when both kinds of directive appear in a successful dump; "is not disabled" exactly otherwise; once the module exists and is not loaded, all three commands run; executor exceptions propagate |
| Filesystem.DumpVerdict | horus_audit/controls/filesystem.py:59-84 | "is disabled" exactly when the dump succeeded with status 0 and shows both kinds of directive; "is not disabled" exactly when it answered otherwise; its exception propagates |
| Filesystem.PartitionCheck | horus_audit/controls/filesystem.py:87-147 | parameters are checked in the order partition, fstype, options, and the first bad one gives "params.<name> is empty" with no command; a list or mapping inside fstype (checked before options is read) or inside options raises TypeError "unhashable type: …" with no command; with valid parameters exactly one `findmnt` query is issued, its exception propagates, and its answer is judged as `MountVerdict` states |
| Filesystem.MountFields | horus_audit/controls/filesystem.py:147 | the stripped answer split at most twice: no fields exactly for blank output, at most three fields, none empty |
| Filesystem.MountVerdict | horus_audit/controls/filesystem.py:140-167 | SKIPPED "Unable to determine mount information for <p>" exactly when the query fails or prints blank output; fewer than three whitespace fields raise ValueError "not enough values to unpack (expected 3, got n)"; a type outside `fstype` gives FAILED; a required option missing from the comma-split rest of the line gives FAILED; PASSED "<p> is properly configured" exactly when neither |
| Filesystem.MountFieldsOfLine | horus_audit/controls/filesystem.py:147 | a mount line of target, type and options, separated by blank runs and surrounded by any whitespace, splits back into exactly those three, the options keeping inner whitespace |
| Filesystem.MountLineVerdict | horus_audit/controls/filesystem.py:140-167 | on such a line the verdict is PASSED exactly when the type is expected and every expected option is a comma-separated piece of the options field |
| Filesystem.ModuleDisabledAsWritten | horus_audit/controls/filesystem.py:6-84 | the control as written and registered: ERROR for a bad module; commands find and lsmod when the module exists and is loaded or the listing fails, and find, lsmod and the empty-pattern dump when it exists and is not loaded; "is disabled" exactly when the module exists, is not loaded, and that dump shows both directives |
| Filesystem.ModuleDisabled | horus_audit/controls/filesystem.py:6-84 | the corrected control: the same traces and verdict, with the dump searching for "^" |
| Filesystem.BuiltinRegistry | horus_audit/controls/filesystem.py:6-94 | importing the controls binds exactly "filesystem.module_disabled" (the control as written) and "filesystem.partition" to their functions |
| Text.SplitOn | horus_audit/controls/filesystem.py:156 | `split(",")` yields at least one piece and no piece holds a comma |
| Text.JoinSplitOn | horus_audit/controls/filesystem.py:156 | splitting on "," loses nothing: joining the pieces back gives the text |
| Text.NatToString | horus_audit/core/yaml_loader.py:54 | `str(i)` is the decimal digits denoting `i`, with no leading zero except in "0" |
| PolicyLoader.ParseRule | horus_audit/core/yaml_loader.py:52-73 | a non-mapping gives "rules[i] has to be a mapping"; a missing or empty rule_id gives "No rules[i].rule_id", then control gives "No rules[i].control"; a missing params is an empty mapping, and a non-mapping params gives "rules[i].params has to be a mapping"; otherwise the fields are copied; every fault is a PolicyError |
| PolicyLoader.ParseRules | horus_audit/core/yaml_loader.py:44-47 | the loop succeeds exactly when every entry parses, with one rule per entry in order; otherwise the first entry that fails decides the error |
| PolicyLoader.LoadPolicy | horus_audit/core/yaml_loader.py:32-49 | a non-mapping root, then a category that is not non-empty text, then rules that are not a non-empty list are rejected in that order with their messages; on success the category is kept and rule j is entry j parsed |
| PolicyLoader.LoadPolicyAccepts | horus_audit/core/yaml_loader.py:32-49 | a document loads exactly when its root is a mapping with non-empty text category and a non-empty rule list whose every entry parses |
| PolicyLoader.ParseRuleAccepts | horus_audit/core/yaml_loader.py:52-73 | an entry parses exactly when it is a mapping with non-empty text rule_id and control and, if present, a mapping params |
| Audit.BuiltinControlsFailThroughEngine | horus_audit/core/engine.py:56-69 | through the engine, a rule bound to either built-in control issues no command and gets ERROR "Check_filesystem_…() got an unexpected keyword argument 'os_info'" |
| Audit.BuiltinRunIsAllErrors | horus_audit/core/engine.py:37-42 | a policy made of built-in controls gives one ERROR per rule, each naming its rule |
| Audit.AsWrittenModuleCheckRaises | horus_audit/controls/filesystem.py:57 | through the local executor, once the module exists and is not loaded, the modprobe dump raises "argv contains empty values" |
| Audit.AsWrittenModuleCheckNeverPasses | horus_audit/controls/filesystem.py:57-84 | through the local executor, the control as written never reports a module as disabled |
| Audit.ModuleCommandsAreAccepted | horus_audit/controls/filesystem.py:31-57 | with a non-empty dump pattern, every command the module control issues passes the executor's argument check |
| Audit.PartitionCommandsAreAccepted | horus_audit/controls/filesystem.py:136-138 | the partition control's query passes the executor's argument check |
| Audit.BuiltinCommandsAreAccepted | horus_audit/controls/filesystem.py:31-138 | with a non-empty dump pattern, every command either control issues passes the executor's argument check |
| Audit.CorrectedDumpReachesHost | horus_audit/core/executor.py:40-69 | with the corrected pattern, a local executor without an allowlist launches the modprobe dump with `grep` resolved on the search path, instead of refusing it |
| Audit.ConstantPathIsNotDisabled | tests/unit/controls/test_filesystem.py:58-71 | for the registered control, when every command prints the same single path, an existing module is neither loaded nor disabled, so the result is FAILED "is not disabled" after all three commands, the empty-pattern dump included |
| Audit.ReportScenario | tests/unit/core/test_report.py:25-36 | one PASSED and one FAILED result count one each, and zero for the others |
| Audit.EngineScenario | tests/unit/core/test_engine.py:17-31 | a rule naming an unregistered control gives ERROR |

## Left out

- The timestamp `generated_at` and `render_report` (horus_audit/core/report.py:39, 46-59) are left out. The first reads the wall clock; the second is template rendering.
- YAML parsing, the file-existence check and file reading in `load_policy` (horus_audit/core/yaml_loader.py:24-30) are left out. They are a parsing library and file I/O. The model starts from the parsed document as a `Value`.
- The `distro` and `platform` calls and the log lines in `detect_os` are left out. They are foreign calls and I/O, and their readings are inputs to `OsInfo.DetectOs`.
- `shutil.which` and `subprocess.run` are the `Host` oracle. `os.path.basename` and `os.path.isabs` are modelled directly, as POSIX path operations.
- Logging set-up (horus_audit/config/config.py) and the package-metadata lookup (horus_audit/metadata.py) are left out. They are I/O with no bearing on results.
- The decorator and global-singleton mechanics of `register_control` are left out. Registration is a map update on an explicit registry value.
- Executors.LocalBackend: the interface controls see always uses the 10-second default timeout, because no control passes another; `Executors.Run` keeps the timeout parameter.
- Text.Lower: case mapping covers ASCII letters only. Python's `lower`/`capitalize` also map other Unicode letters; every text the model compares is ASCII in practice.
- Outcomes.Describe: `str(KeyError(m))` is modelled as m in single quotes. Python uses `repr(m)`, which switches to double quotes when m contains a single quote.
- `Values.Value` keys mappings by text only. A YAML mapping with non-text keys cannot be represented.
- Registry.Control: every control is assumed to accept `rule_id`, `control`, `params` and `executor`; only the `os_info` keyword is modelled as optional, since it is the one the code disagrees about.
- `ControlResult` is a dataclass with mutable fields. Nothing in the core mutates one, so results are immutable values here.
- `ExecutionResult` from a mock executor may be any object with the three fields. Here it is the record itself.

## Findings

| source | as written | input that shows it | evidently intended | confidence | as-written member | corrected member |
|---|---|---|---|---|---|---|
| horus_audit/controls/filesystem.py:57 | the modprobe dump is `["grep", "-RHi", "", "/etc/modprobe.d"]`; the local executor rejects any empty argument (horus_audit/core/executor.py:46-47) | `module: cramfs` on a host where `find` lists the module and `lsmod` does not show it: the dump raises ExecutorError "argv contains empty values" instead of deciding | dump every modprobe line with a non-empty match-everything pattern (`^`), so the control can report "is disabled" | high, not executed | Audit.AsWrittenModuleCheckRaises | Audit.BuiltinCommandsAreAccepted |

`Filesystem.ModuleDisabledAsWritten` is the control exactly as written, and
the registry binds it, as the code does. `Filesystem.ModuleDisabled` is the
corrected one, with the dump pattern `^`. Both are `Filesystem.ModuleCheck`
with a different dump command, so every property of `ModuleCheck` holds for
both.

=== FILE: audit.dfy ===
/** The pipeline as a whole: the engine running the built-in controls, the
    executor seen by those controls, and the unit-test scenarios of the
    repository restated as lemmas about the model.
 */
module Audit {
  import opened Outcomes
  import opened Values
  import opened Text
  import opened Results
  import opened Rules
  import opened Executors
  import opened OsInfo
  import opened Registry
  import opened Engine
  import opened Reports
  import opened Filesystem

  // -----------------------------------------------------------------------
  // The engine with the built-in controls

  /** The engine always passes `os_info`, and neither built-in control
      declares it: through the engine, a rule bound to a built-in control
      never reaches the control's body. The call raises `TypeError`, which
      the engine reports as an ERROR result, and no command runs. */
  lemma BuiltinControlsFailThroughEngine(rule: Rule, ctx: EngineContext)
    requires rule.control == "filesystem.module_disabled" || rule.control == "filesystem.partition"
    ensures var d := ExecuteRule(BuiltinRegistry(), rule, ctx);
      && d.commands == []
      && d.result.status == Error
      && d.result.ruleId == rule.ruleId
      && d.result.control == rule.control
      && d.result.message == Capitalize(
           (if rule.control == "filesystem.partition" then "check_filesystem_partition"
            else "check_filesystem_module_disabled")
           + "() got an unexpected keyword argument 'os_info'")
  {
  }

  /** Any rule list run against the built-in registry yields only ERROR
      results for the built-in controls, and every rule still gets its own
      result. */
  lemma BuiltinRunIsAllErrors(rules: seq<Rule>, ctx: EngineContext)
    requires forall i | 0 <= i < |rules| :: rules[i].control in {"filesystem.module_disabled", "filesystem.partition"}
    ensures |RunRules(BuiltinRegistry(), rules, ctx)| == |rules|
    ensures forall i | 0 <= i < |rules| ::
      RunRules(BuiltinRegistry(), rules, ctx)[i].status == Error
      && RunRules(BuiltinRegistry(), rules, ctx)[i].ruleId == rules[i].ruleId
  {
    forall i | 0 <= i < |rules|
      ensures RunRules(BuiltinRegistry(), rules, ctx)[i].status == Error
      ensures RunRules(BuiltinRegistry(), rules, ctx)[i].ruleId == rules[i].ruleId
    {
      BuiltinControlsFailThroughEngine(rules[i], ctx);
    }
  }

  // -----------------------------------------------------------------------
  // The module control and the local executor

  /** The invocation the engine would make for `rule` with a local executor
      as the backend. */
  function LocalInvocation(rule: Rule, osInfo: Option<OSInfo>, allowed: Option<set<string>>, host: Host): (inv: Invocation)
    ensures inv.ruleId == rule.ruleId && inv.control == rule.control && inv.params == rule.params
    ensures forall argv :: inv.executor(argv) == Run(allowed, host, TextList(argv), DefaultTimeout).outcome
  {
    Invocation(rule.ruleId, rule.control, rule.params, LocalBackend(allowed, host), osInfo)
  }

  /** As written, the module control's modprobe dump has an empty argument,
      which the local executor refuses: once the module exists on disk and
      is not loaded, the control raises instead of deciding. */
  lemma AsWrittenModuleCheckRaises(rule: Rule, osInfo: Option<OSInfo>, allowed: Option<set<string>>, host: Host)
    ensures var inv := LocalInvocation(rule, osInfo, allowed, host);
      var m := TextParam(rule.params, "module");
      m.Some? && ModuleExists(inv, m.value) && inv.executor(LsmodArgv).Ok? && !ModuleLoaded(inv, m.value) ==>
        ModuleDisabledAsWritten(inv).outcome == Fault(ExecutorError, "argv contains empty values")
  {
    var inv := LocalInvocation(rule, osInfo, allowed, host);
    assert !IsNonEmptyText(TextList(GrepArgvAsWritten).items[2]);
    assert inv.executor(GrepArgvAsWritten) == Fault(ExecutorError, "argv contains empty values");
  }

  /** Consequently the as-written control can never report a module as
      disabled through the local executor. */
  lemma AsWrittenModuleCheckNeverPasses(rule: Rule, osInfo: Option<OSInfo>, allowed: Option<set<string>>, host: Host)
    ensures var inv := LocalInvocation(rule, osInfo, allowed, host);
      var m := TextParam(rule.params, "module");
      m.Some? ==>
        ModuleDisabledAsWritten(inv).outcome != Ok(PassedResult(rule.ruleId, rule.control, "Kernel module " + m.value + " is disabled"))
  {
    var inv := LocalInvocation(rule, osInfo, allowed, host);
    assert !IsNonEmptyText(TextList(GrepArgvAsWritten).items[2]);
    assert inv.executor(GrepArgvAsWritten).Fault?;
  }

  /** A command the local executor's argument check accepts. */
  predicate AcceptedArgv(argv: seq<string>) {
    CheckArgv(TextList(argv)).Ok?
  }

  /** With the corrected pattern, every command the module control issues
      passes the executor's argument check. */
  lemma ModuleCommandsAreAccepted(inv: Invocation)
    ensures forall c | c in ModuleDisabled(inv).commands :: AcceptedArgv(c)
  {
    var m := TextParam(inv.params, "module");
    if m.Some? {
      var cmds := [FindArgv(m.value), LsmodArgv, GrepArgv];
      forall c | c in cmds ensures AcceptedArgv(c) {
        assert forall k | 0 <= k < |c| :: c[k] != "";
      }
      assert ModuleDisabled(inv).commands <= cmds;
    }
  }

  /** The partition control's one command passes the argument check. */
  lemma PartitionCommandsAreAccepted(inv: Invocation)
    ensures forall c | c in PartitionCheck(inv).commands :: AcceptedArgv(c)
  {
    var p := TextParam(inv.params, "partition");
    if p.Some? {
      var c := FindmntArgv(p.value);
      assert forall k | 0 <= k < |c| :: c[k] != "";
      assert AcceptedArgv(c);
    }
  }

  /** With the corrected pattern, every command either built-in control
      issues passes the executor's argument check. */
  lemma BuiltinCommandsAreAccepted(inv: Invocation)
    ensures forall c | c in ModuleDisabled(inv).commands :: AcceptedArgv(c)
    ensures forall c | c in PartitionCheck(inv).commands :: AcceptedArgv(c)
  {
    ModuleCommandsAreAccepted(inv);
    PartitionCommandsAreAccepted(inv);
  }

  /** With the corrected pattern the modprobe dump reaches the host: through
      a local executor without an allowlist, on a host where `grep` is on the
      search path, the dump is launched with the resolved path, so the
      control's verdict rests on what the dump prints. */
  lemma CorrectedDumpReachesHost(inv: Invocation, host: Host)
    requires inv.executor == LocalBackend(None, host)
    requires host.which("grep").GetOr("") != ""
    ensures inv.executor(GrepArgv) == Finish(host.launch([host.which("grep").value] + GrepArgv[1..], DefaultTimeout))
  {
    assert CheckArgv(TextList(GrepArgv)).value == GrepArgv;
    assert !IsAbsolute("grep");
  }

  // -----------------------------------------------------------------------
  // Scenarios of the unit tests

  /** The unit tests' stand-in executor: one fixed answer to every command. */
  function ConstantExecutor(stdout: string, code: int): (e: Executor)
    ensures forall argv :: e(argv) == Ok(ExecutionResult(stdout, "", code))
  {
    (argv: seq<string>) => Ok(ExecutionResult(stdout, "", code))
  }

  /** A line made only of characters of `out` cannot mention the module the
      way a listing or a modprobe directive does when `out` has no space:
      each of those forms holds a space. */
  lemma SpacelessLineMentionsNothing(line: string, out: string, name: string)
    requires CharsWithin(line, out) && ' ' !in out
    ensures !IsLoadedLine(line, name)
    ensures !IsInstallDirective(line, name)
    ensures !IsBlacklistDirective(line, name)
  {
    forall k | 0 <= k < |line| ensures line[k] != ' ' {
      assert line[k] in out;
    }
    LowerAbsentChar(line, ' ');
    OccurrenceCharsWithin(line, name + " ");
    assert (name + " ")[|name|] == ' ';
    OccurrenceCharsWithin(Lower(line), "install " + name);
    assert ("install " + name)[7] == ' ';
    OccurrenceCharsWithin(Lower(line), "blacklist " + name);
    assert ("blacklist " + name)[9] == ' ';
  }

  /** The scenario of the module unit test, on the registered control: when
      every command answers the same single path (no space), an existing
      module is neither loaded nor disabled, so the control reports it as
      not disabled after issuing all three commands. The stand-in executor
      answers the empty-pattern dump that the local executor refuses. */
  lemma ConstantPathIsNotDisabled(inv: Invocation, out: string)
    requires inv.executor == ConstantExecutor(out, 0)
    requires TextParam(inv.params, "module").Some?
    requires ' ' !in out && !IsBlank(out)
    ensures var m := TextParam(inv.params, "module").value;
      && ModuleDisabledAsWritten(inv).outcome == Ok(FailedResult(inv.ruleId, inv.control, "Kernel module " + m + " is not disabled"))
      && ModuleDisabledAsWritten(inv).commands == [FindArgv(m), LsmodArgv, GrepArgvAsWritten]
  {
    var m := TextParam(inv.params, "module").value;
    var lines := SplitLines(out);
    SplitLinesCharsWithin(out);
    forall line | line in lines
      ensures !IsLoadedLine(line, m) && !IsInstallDirective(line, m) && !IsBlacklistDirective(line, m)
    {
      SpacelessLineMentionsNothing(line, out, m);
    }
    assert inv.executor(LsmodArgv).value.stdout == out;
    assert inv.executor(GrepArgvAsWritten).value.stdout == out;
    assert !ModuleLoaded(inv, m);
    assert !ModuleDisabledBy(inv, m, GrepArgvAsWritten);
  }


  /** Two results, one PASSED and one FAILED: the summary counts one of each. */
  lemma ReportScenario()
    ensures var results := [PassedResult("R1", "Test control", "Passed"), FailedResult("R2", "Test control", "Failed")];
      && Count(results, Passed) == 1 && Count(results, Failed) == 1
      && Count(results, Warning) == 0 && Count(results, Skipped) == 0 && Count(results, Error) == 0
  {
    var results := [PassedResult("R1", "Test control", "Passed"), FailedResult("R2", "Test control", "Failed")];
    assert results[..1] == [results[0]];
    assert results[..1][..0] == [];
  }

  /** A rule whose control is not registered, on an empty registry. */
  lemma EngineScenario(ctx: EngineContext)
    ensures RunRules(Empty, [Rule("R1", "Test control", map[])], ctx)[0].status == Error
  {
  }
}

=== FILE: engine.dfy ===
/** The engine: runs a validated policy's rules in order, one result per
    rule, and turns any exception a control raises into an `ERROR` result so
    that no rule can abort the run.
 */
module Engine {
  import opened Outcomes
  import opened Values
  import opened Text
  import opened Results
  import opened Rules
  import opened Executors
  import opened OsInfo
  import opened Registry

  /** What every rule of one run shares: the executor and the host facts. */
  datatype EngineContext = EngineContext(executor: Executor, osInfo: Option<OSInfo>)

  /** One rule's result, and the commands its control sent to the executor. */
  datatype Dispatch = Dispatch(result: ControlResult, commands: seq<seq<string>>)

  /** Calls a control with the five keyword arguments the engine always
      passes. A signature without `os_info` makes the call itself raise
      `TypeError` before the control's body runs. */
  function Invoke(f: Control, inv: Invocation): (ev: Evaluation)
    ensures f.acceptsOsInfo ==> ev == f.eval(inv)
    ensures !f.acceptsOsInfo ==>
      ev == Evaluation([], Fault(TypeError, f.qualname + "() got an unexpected keyword argument 'os_info'"))
  {
    if f.acceptsOsInfo then f.eval(inv)
    else Evaluation([], Fault(TypeError, f.qualname + "() got an unexpected keyword argument 'os_info'"))
  }

  /** `_execute_rule(rule, context)`. */
  function ExecuteRule(reg: Registry, rule: Rule, ctx: EngineContext): (d: Dispatch)
    // an unknown control is an ERROR result and nothing runs
    ensures !Has(reg, rule.control) ==>
      d == Dispatch(ErrorResult(rule.ruleId, rule.control, "Unknown control: " + rule.control), [])
    // a known control sees exactly this rule and the shared context
    ensures Has(reg, rule.control) ==>
      var ev := Invoke(reg.controls[rule.control],
                       Invocation(rule.ruleId, rule.control, rule.params, ctx.executor, ctx.osInfo));
      && d.commands == ev.commands
      // its returned result is passed through verbatim
      && (ev.outcome.Ok? ==> d.result == ev.outcome.value)
      // its exception becomes an ERROR result naming this rule
      && (ev.outcome.Fault? ==>
            d.result == ErrorResult(rule.ruleId, rule.control, Capitalize(Describe(ev.outcome.kind, ev.outcome.msg))))
  {
    if !Has(reg, rule.control) then
      Dispatch(ErrorResult(rule.ruleId, rule.control, "Unknown control: " + rule.control), [])
    else
      match Get(reg, rule.control)
      case Ok(f) =>
        var ev := Invoke(f, Invocation(rule.ruleId, rule.control, rule.params, ctx.executor, ctx.osInfo));
        match ev.outcome
        case Ok(result) => Dispatch(result, ev.commands)
        case Fault(kind, msg) =>
          Dispatch(ErrorResult(rule.ruleId, rule.control, Capitalize(Describe(kind, msg))), ev.commands)
  }

  /** The engine's loop: one result per rule, appended in rule order. */
  function RunRules(reg: Registry, rules: seq<Rule>, ctx: EngineContext): (results: seq<ControlResult>)
    ensures |results| == |rules|
    ensures forall i | 0 <= i < |rules| :: results[i] == ExecuteRule(reg, rules[i], ctx).result
  {
    if rules == [] then []
    else RunRules(reg, rules[..|rules| - 1], ctx) + [ExecuteRule(reg, rules[|rules| - 1], ctx).result]
  }

  /** The executor the run uses: the given one, else a local executor with
      no allowlist. */
  function Backend(executor: Option<Executor>, host: Host): (e: Executor)
    ensures executor.Some? ==> e == executor.value
    ensures executor.None? ==> forall argv :: e(argv) == Run(None, host, TextList(argv), DefaultTimeout).outcome
  {
    match executor
    case Some(e) => e
    case None => LocalBackend(None, host)
  }

  /** `run_policy(policy, executor=executor, os_info=os_info)`. */
  function RunPolicy(reg: Registry, policy: Policy, executor: Option<Executor>, osInfo: Option<OSInfo>, host: Host): (results: seq<ControlResult>)
    ensures |results| == |policy.rules|
    ensures forall i | 0 <= i < |policy.rules| ::
      results[i] == ExecuteRule(reg, policy.rules[i], EngineContext(Backend(executor, host), osInfo)).result
  {
    RunRules(reg, policy.rules, EngineContext(Backend(executor, host), osInfo))
  }

  // -----------------------------------------------------------------------
  // Properties

  /** Rules do not influence each other: running two lists of rules one
      after the other gives the results of running them together. */
  lemma RunRulesConcat(reg: Registry, a: seq<Rule>, b: seq<Rule>, ctx: EngineContext)
    ensures RunRules(reg, a + b, ctx) == RunRules(reg, a, ctx) + RunRules(reg, b, ctx)
  {
    var lhs := RunRules(reg, a + b, ctx);
    var rhs := RunRules(reg, a, ctx) + RunRules(reg, b, ctx);
    assert |lhs| == |rhs|;
    forall i | 0 <= i < |lhs| ensures lhs[i] == rhs[i] {
      if i < |a| {
        assert (a + b)[i] == a[i];
      } else {
        assert (a + b)[i] == b[i - |a|];
      }
    }
  }

  /** A rule's result depends only on that rule and the context: the same
      rule anywhere in any policy gives the same result. */
  lemma ResultDependsOnlyOnRule(reg: Registry, rules1: seq<Rule>, rules2: seq<Rule>, i: nat, j: nat, ctx: EngineContext)
    requires i < |rules1| && j < |rules2| && rules1[i] == rules2[j]
    ensures RunRules(reg, rules1, ctx)[i] == RunRules(reg, rules2, ctx)[j]
  {
  }

  /** Every result that the engine makes itself (unknown control, or an
      exception) names the rule it came from and is an ERROR; any other
      result is the control's own return value. */
  lemma EngineErrorsNameTheirRule(reg: Registry, rule: Rule, ctx: EngineContext)
    ensures var d := ExecuteRule(reg, rule, ctx);
      var inv := Invocation(rule.ruleId, rule.control, rule.params, ctx.executor, ctx.osInfo);
      || (d.result.status == Error && d.result.ruleId == rule.ruleId && d.result.control == rule.control)
      || (Has(reg, rule.control) && Invoke(reg.controls[rule.control], inv).outcome == Ok(d.result))
  {
  }

  /** An unregistered control gives, for every name, the ERROR result
      "Unknown control: <name>" and issues no command. */
  lemma UnknownControlIsError(reg: Registry, rule: Rule, ctx: EngineContext)
    requires !Has(reg, rule.control)
    ensures ExecuteRule(reg, rule, ctx).result.status == Error
    ensures ExecuteRule(reg, rule, ctx).result.message == "Unknown control: " + rule.control
    ensures ExecuteRule(reg, rule, ctx).commands == []
  {
  }
}

=== FILE: executor.dfy ===
/** The command-execution layer: the only place that launches programs.

    `Run` is the local executor's front end: it validates the argument
    vector, applies the optional allowlist of executable basenames, resolves
    a relative executable on the search path, launches it without a shell,
    and normalises the outcome. The search-path lookup and the process
    launch itself are foreign calls and arrive as the `Host` oracle.
 */
module Executors {
  import opened Outcomes
  import opened Values
  import opened Text

  /** What one executor call reports: captured output and exit status. */
  datatype ExecutionResult = ExecutionResult(stdout: string, stderr: string, code: int)

  /** How a launched process ended, as the process-launch library reports it. */
  datatype Launch =
    | Completed(stdout: Option<string>, stderr: Option<string>, returncode: int)
    | TimedOut(description: string)     // the library's timeout exception text
    | LaunchFailed(description: string) // any other launch failure, e.g. permission denied

  /** The foreign calls the executor relies on: search-path lookup
      (`shutil.which`) and the process launch (`subprocess.run` with the
      argument vector and the timeout in seconds). */
  datatype Host = Host(which: string -> Option<string>, launch: (seq<string>, int) -> Launch)

  /** The executor interface controls see: an argument vector in, an
      execution result (or the executor's exception) out. */
  type Executor = seq<string> -> Outcome<ExecutionResult>

  const DefaultTimeout: int := 10

  /** Exit status reported for a command that ran out of time. */
  const TimeoutCode: int := 124

  /** The executor's answer together with the caller's argument list as the
      call leaves it: resolution writes the resolved path into element 0. */
  datatype Execution = Execution(argv: Value, outcome: Outcome<ExecutionResult>)

  predicate IsNonEmptyText(v: Value) {
    v.VStr? && v.s != ""
  }

  /** The argument-vector check, in the order the executor makes it. */
  function CheckArgv(argv: Value): (r: Outcome<seq<string>>)
    ensures r.Ok? <==> argv.VList? && |argv.items| > 0 && forall i | 0 <= i < |argv.items| :: IsNonEmptyText(argv.items[i])
    ensures r.Ok? ==> TextList(r.value) == argv && r.value[0] != ""
    ensures r.Fault? ==> r.kind == ExecutorError
    // the first failed test names the fault
    ensures !argv.VList? ==> r.msg == "Command must be a list"
    ensures argv.VList? && argv.items == [] ==> r.msg == "argv is empty"
    ensures argv.VList? && argv.items != [] && r.Fault? ==> r.msg == "argv contains empty values"
  {
    if !argv.VList? then Fault(ExecutorError, "Command must be a list")
    else if |argv.items| == 0 then Fault(ExecutorError, "argv is empty")
    else if exists i | 0 <= i < |argv.items| :: !IsNonEmptyText(argv.items[i]) then
      Fault(ExecutorError, "argv contains empty values")
    else
      var args := seq(|argv.items|, i requires 0 <= i < |argv.items| => argv.items[i].s);
      assert TextList(args).items == argv.items;
      Ok(args)
  }

  /** The program's answer, normalised: no trailing line feeds on either
      stream, a missing stream read as empty text, a timeout reported as
      exit status 124 with empty output. */
  function Finish(launch: Launch): (r: Outcome<ExecutionResult>)
    // only a failed launch raises
    ensures r.Fault? <==> launch.LaunchFailed?
    ensures launch.LaunchFailed? ==> r == Fault(ExecutorError, "Execution failed: " + launch.description)
    ensures launch.Completed? ==> r.value.code == launch.returncode
    // a timeout: no output, status 124, the exception's text capitalised
    // and without trailing line feeds as the error output
    ensures launch.TimedOut? ==>
      && r.value.stdout == "" && r.value.code == TimeoutCode
      && StartsWith(Capitalize(launch.description), r.value.stderr)
      && (forall i | |r.value.stderr| <= i < |Capitalize(launch.description)| :: Capitalize(launch.description)[i] == '\n')
      && (r.value.stderr == "" || r.value.stderr[|r.value.stderr| - 1] != '\n')
  {
    match launch
    case Completed(out, err, rc) =>
      Ok(ExecutionResult(RStripNewlines(out.GetOr("")), RStripNewlines(err.GetOr("")), rc))
    case TimedOut(description) =>
      Ok(ExecutionResult("", RStripNewlines(Capitalize(description)), TimeoutCode))
    case LaunchFailed(description) =>
      Fault(ExecutorError, "Execution failed: " + description)
  }

  /** `LocalExecutor(allowed_commands=allowed).run(argv, timeout=timeout)`. */
  function Run(allowed: Option<set<string>>, host: Host, argv: Value, timeout: int): (e: Execution)
    // a malformed argument vector is refused before anything else
    ensures CheckArgv(argv).Fault? ==> e == Execution(argv, Fault(ExecutorError, CheckArgv(argv).msg))
    // the allowlist is checked on the basename, before resolution
    ensures CheckArgv(argv).Ok? && allowed.Some? && Basename(CheckArgv(argv).value[0]) !in allowed.value ==>
              e == Execution(argv, Fault(ExecutorError, "Command not allowed: " + Basename(CheckArgv(argv).value[0])))
    // an absolute executable is launched as given
    ensures CheckArgv(argv).Ok? && (allowed.None? || Basename(CheckArgv(argv).value[0]) in allowed.value)
              && IsAbsolute(CheckArgv(argv).value[0]) ==>
              e == Execution(argv, Finish(host.launch(CheckArgv(argv).value, timeout)))
    // a relative one is looked up; nothing found is a fault
    ensures CheckArgv(argv).Ok? && (allowed.None? || Basename(CheckArgv(argv).value[0]) in allowed.value)
              && !IsAbsolute(CheckArgv(argv).value[0])
              && host.which(CheckArgv(argv).value[0]).GetOr("") == "" ==>
              e == Execution(argv, Fault(ExecutorError, "Command not found: " + CheckArgv(argv).value[0]))
    // otherwise the resolved path replaces element 0, in the caller's list too
    ensures CheckArgv(argv).Ok? && (allowed.None? || Basename(CheckArgv(argv).value[0]) in allowed.value)
              && !IsAbsolute(CheckArgv(argv).value[0])
              && host.which(CheckArgv(argv).value[0]).GetOr("") != "" ==>
              var resolved := [host.which(CheckArgv(argv).value[0]).value] + CheckArgv(argv).value[1..];
              e == Execution(TextList(resolved), Finish(host.launch(resolved, timeout)))
  {
    match CheckArgv(argv)
    case Fault(kind, msg) => Execution(argv, Fault(kind, msg))
    case Ok(args) =>
      var executable := Basename(args[0]);
      if allowed.Some? && executable !in allowed.value then
        Execution(argv, Fault(ExecutorError, "Command not allowed: " + executable))
      else if IsAbsolute(args[0]) then
        Execution(argv, Finish(host.launch(args, timeout)))
      else
        var found := host.which(args[0]).GetOr("");
        if found == "" then
          Execution(argv, Fault(ExecutorError, "Command not found: " + args[0]))
        else
          var resolved := [found] + args[1..];
          Execution(TextList(resolved), Finish(host.launch(resolved, timeout)))
  }

  /** `LocalExecutor.run_text(executable, *args)`: the same call as
      `run([executable, *args])`, through a list built for the occasion. */
  function RunText(allowed: Option<set<string>>, host: Host, executable: Value, args: seq<Value>, timeout: int): (r: Outcome<ExecutionResult>)
    // an empty or non-text executable or argument is refused, and only such
    // an argument gets that answer
    ensures r == Fault(ExecutorError, "argv contains empty values") <==>
      !IsNonEmptyText(executable) || exists i | 0 <= i < |args| :: !IsNonEmptyText(args[i])
  {
    var argv := VList([executable] + args);
    assert argv.items[0] == executable;
    assert forall i | 0 <= i < |args| :: argv.items[i + 1] == args[i];
    var e := Run(allowed, host, argv, timeout);
    // past the argument check, every fault's text starts with "Command" or
    // "Execution"
    assert CheckArgv(argv).Ok? && e.outcome.Fault? ==> e.outcome.msg[0] == 'C' || e.outcome.msg[0] == 'E';
    e.outcome
  }

  /** The local executor seen through the executor interface, as the
      engine's default backend and the controls use it: default timeout. */
  function LocalBackend(allowed: Option<set<string>>, host: Host): Executor {
    (argv: seq<string>) => Run(allowed, host, TextList(argv), DefaultTimeout).outcome
  }

  // -----------------------------------------------------------------------
  // Properties

  /** A refused argument vector is refused the same way whatever the
      allowlist and the host: nothing is resolved or launched. */
  lemma InvalidArgvNeverReachesHost(a1: Option<set<string>>, h1: Host, a2: Option<set<string>>, h2: Host, argv: Value, t1: int, t2: int)
    requires !argv.VList? || |argv.items| == 0 || exists i | 0 <= i < |argv.items| :: !IsNonEmptyText(argv.items[i])
    ensures Run(a1, h1, argv, t1) == Run(a2, h2, argv, t2)
    ensures Run(a1, h1, argv, t1).outcome.Fault? && Run(a1, h1, argv, t1).argv == argv
  {
  }

  /** The allowlist decides before resolution: a refused executable gets
      the same answer from every host. */
  lemma AllowlistPrecedesResolution(allowed: set<string>, h1: Host, h2: Host, args: seq<string>, t1: int, t2: int)
    requires |args| > 0 && forall i | 0 <= i < |args| :: args[i] != ""
    requires Basename(args[0]) !in allowed
    ensures Run(Some(allowed), h1, TextList(args), t1) == Run(Some(allowed), h2, TextList(args), t2)
    ensures Run(Some(allowed), h1, TextList(args), t1).outcome == Fault(ExecutorError, "Command not allowed: " + Basename(args[0]))
  {
    assert CheckArgv(TextList(args)).value == args;
  }

  /** Without an allowlist every executable passes that check: the call
      behaves as with any allowlist that admits its basename. */
  lemma NoAllowlistAdmitsAll(allowed: set<string>, host: Host, args: seq<string>, timeout: int)
    requires |args| > 0 && forall i | 0 <= i < |args| :: args[i] != ""
    requires Basename(args[0]) in allowed
    ensures Run(None, host, TextList(args), timeout) == Run(Some(allowed), host, TextList(args), timeout)
  {
    assert CheckArgv(TextList(args)).value == args;
  }

  /** A timeout is a normal answer: once the program is launched and runs
      out of time, the call reports exit status 124 and empty output, and
      does not raise. */
  lemma TimeoutIsAnAnswer(allowed: Option<set<string>>, host: Host, args: seq<string>, timeout: int)
    requires |args| > 0 && forall i | 0 <= i < |args| :: args[i] != ""
    requires allowed.None? || Basename(args[0]) in allowed.value
    requires IsAbsolute(args[0]) || host.which(args[0]).GetOr("") != ""
    requires forall launched: seq<string> :: host.launch(launched, timeout).TimedOut?
    ensures Run(allowed, host, TextList(args), timeout).outcome.Ok?
    ensures Run(allowed, host, TextList(args), timeout).outcome.value.stdout == ""
    ensures Run(allowed, host, TextList(args), timeout).outcome.value.code == TimeoutCode
  {
    assert CheckArgv(TextList(args)).value == args;
  }

  /** On normal completion the captured output keeps everything but its
      trailing line feeds, and the exit status is the process's. */
  lemma CompletedOutput(out: Option<string>, err: Option<string>, rc: int)
    ensures var r := Finish(Completed(out, err, rc));
      && r.Ok? && r.value.code == rc
      && StartsWith(out.GetOr(""), r.value.stdout)
      && (forall i | |r.value.stdout| <= i < |out.GetOr("")| :: out.GetOr("")[i] == '\n')
      && (r.value.stdout == "" || r.value.stdout[|r.value.stdout| - 1] != '\n')
      && StartsWith(err.GetOr(""), r.value.stderr)
      && (forall i | |r.value.stderr| <= i < |err.GetOr("")| :: err.GetOr("")[i] == '\n')
      && (r.value.stderr == "" || r.value.stderr[|r.value.stderr| - 1] != '\n')
      && (out.None? ==> r.value.stdout == "")
      && (err.None? ==> r.value.stderr == "")
  {
  }

  /** `run_text(e, *args)` answers exactly as `run([e, *args])`. */
  lemma RunTextIsRun(allowed: Option<set<string>>, host: Host, executable: string, args: seq<string>, timeout: int)
    ensures RunText(allowed, host, VStr(executable), TextList(args).items, timeout)
         == Run(allowed, host, TextList([executable] + args), timeout).outcome
  {
    assert [VStr(executable)] + TextList(args).items == TextList([executable] + args).items;
  }
}

=== FILE: filesystem.dfy ===
/** The two reference controls, `filesystem.module_disabled` and
    `filesystem.partition`. Each validates its parameters before issuing any
    command, reads the host only through the executor, and returns one
    result, or raises whatever the executor (or a malformed answer) raises.
 */
module Filesystem {
  import opened Outcomes
  import opened Values
  import opened Text
  import opened Results
  import opened Executors
  import opened Registry

  // -----------------------------------------------------------------------
  // Parameters

  /** A text parameter, trimmed and lower-cased; `None` when it is absent,
      not text, or blank. */
  function TextParam(params: map<string, Value>, key: string): (r: Option<string>)
    ensures r.None? <==> !Lookup(params, key).VStr? || IsBlank(Lookup(params, key).s)
    ensures r.Some? ==> r.value == Lower(Strip(Lookup(params, key).s)) && r.value != ""
  {
    var v := Lookup(params, key);
    if !v.VStr? || Strip(v.s) == "" then None else Some(Lower(Strip(v.s)))
  }

  /** A list parameter; `None` when it is absent, not a list, or empty. */
  function ListParam(params: map<string, Value>, key: string): (r: Option<seq<Value>>)
    ensures r.None? <==> !Lookup(params, key).VList? || Lookup(params, key).items == []
    ensures r.Some? ==> r.value == Lookup(params, key).items && r.value != []
  {
    var v := Lookup(params, key);
    if !v.VList? || v.items == [] then None else Some(v.items)
  }

  /** `set(items)` raises `TypeError` at the first list or mapping in
      `items`; this is the type name it reports. */
  function FirstUnhashable(items: seq<Value>): (r: Option<string>)
    ensures r.None? <==> forall i | 0 <= i < |items| :: !items[i].VList? && !items[i].VMap?
    ensures r.Some? ==> r.value == "list" || r.value == "dict"
    // the type name of the first list or mapping
    ensures r.Some? ==> exists i | 0 <= i < |items| ::
      && (items[i].VList? || items[i].VMap?)
      && (forall j | 0 <= j < i :: !items[j].VList? && !items[j].VMap?)
      && r.value == (if items[i].VList? then "list" else "dict")
  {
    if items == [] then None
    else if items[0].VList? then Some("list")
    else if items[0].VMap? then Some("dict")
    else FirstUnhashable(items[1..])
  }

  function UnhashableFault(typeName: string): Outcome<ControlResult> {
    Fault(TypeError, "unhashable type: '" + typeName + "'")
  }

  // -----------------------------------------------------------------------
  // filesystem.module_disabled

  /** Looks for the module's object file under the kernel modules tree. */
  function FindArgv(name: string): seq<string> {
    ["find", "/lib/modules/", "-type", "f", "-name", name + "*.ko*"]
  }

  const LsmodArgv: seq<string> := ["lsmod"]

  /** Dumps every modprobe configuration line, prefixed with its file name,
      as written in the control: the search pattern is the empty text. */
  const GrepArgvAsWritten: seq<string> := ["grep", "-RHi", "", "/etc/modprobe.d"]

  /** The same dump with a pattern that also matches every line but is not
      empty, so that the local executor accepts the argument vector. */
  const GrepArgv: seq<string> := ["grep", "-RHi", "^", "/etc/modprobe.d"]

  /** A module listing line for the module: it starts with the name and a
      space. */
  predicate IsLoadedLine(line: string, name: string) {
    StartsWith(line, name + " ")
  }

  /** A modprobe line (any case) that installs the module as a no-op. */
  predicate IsInstallDirective(line: string, name: string) {
    && Contains(Lower(line), "install " + name)
    && (Contains(Lower(line), "/bin/true") || Contains(Lower(line), "/bin/false"))
  }

  /** A modprobe line (any case) that blacklists the module. */
  predicate IsBlacklistDirective(line: string, name: string) {
    Contains(Lower(line), "blacklist " + name)
  }

  /** The loop over the module listing, stopping at the first match. */
  function ScanLoaded(lines: seq<string>, name: string): (loaded: bool)
    ensures loaded <==> exists i | 0 <= i < |lines| :: IsLoadedLine(lines[i], name)
  {
    if lines == [] then false
    else if IsLoadedLine(lines[0], name) then true
    else
      var rest := ScanLoaded(lines[1..], name);
      assert forall i | 1 <= i < |lines| :: lines[i] == lines[1..][i - 1];
      rest
  }

  /** The loop over the modprobe dump: two flags, each raised by any line. */
  function ScanDirectives(lines: seq<string>, name: string, install: bool, blacklist: bool): (flags: (bool, bool))
    ensures flags.0 <==> install || exists i | 0 <= i < |lines| :: IsInstallDirective(lines[i], name)
    ensures flags.1 <==> blacklist || exists i | 0 <= i < |lines| :: IsBlacklistDirective(lines[i], name)
  {
    if lines == [] then (install, blacklist)
    else
      var rest := ScanDirectives(lines[1..], name,
                                 install || IsInstallDirective(lines[0], name),
                                 blacklist || IsBlacklistDirective(lines[0], name));
      assert forall i | 1 <= i < |lines| :: lines[i] == lines[1..][i - 1];
      rest
  }

  /** The module exists: `find` answered with non-blank output. */
  predicate ModuleExists(inv: Invocation, name: string) {
    inv.executor(FindArgv(name)).Ok? && !IsBlank(inv.executor(FindArgv(name)).value.stdout)
  }

  /** The module is loaded: the listing succeeded and shows it. */
  predicate ModuleLoaded(inv: Invocation, name: string) {
    && inv.executor(LsmodArgv).Ok?
    && inv.executor(LsmodArgv).value.code == 0
    && exists line | line in SplitLines(inv.executor(LsmodArgv).value.stdout) :: IsLoadedLine(line, name)
  }

  /** The module is disabled: the dump succeeded and shows both a no-op
      install directive and a blacklist directive for it (not necessarily
      in the same file). */
  predicate ModuleDisabledBy(inv: Invocation, name: string, grep: seq<string>) {
    DumpShowsDisabled(inv.executor(grep), name)
  }

  /** The modprobe dump succeeded and holds both kinds of directive. */
  predicate DumpShowsDisabled(dump: Outcome<ExecutionResult>, name: string) {
    && dump.Ok?
    && dump.value.code == 0
    && (exists line | line in SplitLines(dump.value.stdout) :: IsInstallDirective(line, name))
    && (exists line | line in SplitLines(dump.value.stdout) :: IsBlacklistDirective(line, name))
  }

  /** The last stage of the module control: the verdict on the modprobe
      dump, or the dump's exception. */
  function DumpVerdict(ruleId: string, control: string, name: string, dump: Outcome<ExecutionResult>): (r: Outcome<ControlResult>)
    ensures dump.Fault? ==> r == Fault(dump.kind, dump.msg)
    ensures r == Ok(PassedResult(ruleId, control, "Kernel module " + name + " is disabled")) <==>
      DumpShowsDisabled(dump, name)
    ensures r == Ok(FailedResult(ruleId, control, "Kernel module " + name + " is not disabled")) <==>
      dump.Ok? && !DumpShowsDisabled(dump, name)
  {
    match dump
    case Fault(kind, msg) => Fault(kind, msg)
    case Ok(out) =>
      var flags := if out.code == 0 then ScanDirectives(SplitLines(out.stdout), name, false, false) else (false, false);
      if !flags.0 || !flags.1 then
        Ok(FailedResult(ruleId, control, "Kernel module " + name + " is not disabled"))
      else
        Ok(PassedResult(ruleId, control, "Kernel module " + name + " is disabled"))
  }

  /** `check_filesystem_module_disabled`, with the modprobe dump command as
      a parameter (see `ModuleDisabledAsWritten` and `ModuleDisabled`). */
  function ModuleCheck(inv: Invocation, grep: seq<string>): (r: Evaluation)
    // a bad parameter is an ERROR before any command
    ensures TextParam(inv.params, "module").None? ==>
      r == Evaluation([], Ok(ErrorResult(inv.ruleId, inv.control, "params.module is empty")))
    ensures TextParam(inv.params, "module").Some? ==>
      var m := TextParam(inv.params, "module").value;
      var ex := inv.executor;
      // the commands are a prefix of find, lsmod, grep
      && r.commands != [] && r.commands <= [FindArgv(m), LsmodArgv, grep]
      // nothing found on disk
      && (r.outcome == Ok(PassedResult(inv.ruleId, inv.control, "Kernel module " + m + " does not exist")) <==>
            ex(FindArgv(m)).Ok? && IsBlank(ex(FindArgv(m)).value.stdout))
      // the exact trace of each branch
      && (ex(FindArgv(m)).Ok? && IsBlank(ex(FindArgv(m)).value.stdout) ==> r.commands == [FindArgv(m)])
      && (ModuleExists(inv, m) && (ex(LsmodArgv).Fault? || ModuleLoaded(inv, m)) ==>
            r.commands == [FindArgv(m), LsmodArgv])
      && (ModuleExists(inv, m) && ex(LsmodArgv).Ok? && !ModuleLoaded(inv, m) ==>
            r.commands == [FindArgv(m), LsmodArgv, grep])
      // loaded
      && (r.outcome == Ok(FailedResult(inv.ruleId, inv.control, "Kernel module " + m + " is loaded")) <==>
            ModuleExists(inv, m) && ModuleLoaded(inv, m))
      // disabled, or not
      && (r.outcome == Ok(PassedResult(inv.ruleId, inv.control, "Kernel module " + m + " is disabled")) <==>
            ModuleExists(inv, m) && ex(LsmodArgv).Ok? && !ModuleLoaded(inv, m) && ModuleDisabledBy(inv, m, grep))
      && (r.outcome == Ok(FailedResult(inv.ruleId, inv.control, "Kernel module " + m + " is not disabled")) <==>
            ModuleExists(inv, m) && ex(LsmodArgv).Ok? && !ModuleLoaded(inv, m) && ex(grep).Ok?
            && !ModuleDisabledBy(inv, m, grep))
      // an executor exception propagates unchanged
      && (ex(FindArgv(m)).Fault? ==> r == Evaluation([FindArgv(m)], Fault(ex(FindArgv(m)).kind, ex(FindArgv(m)).msg)))
      && (ModuleExists(inv, m) && ex(LsmodArgv).Fault? ==>
            r.outcome == Fault(ex(LsmodArgv).kind, ex(LsmodArgv).msg))
      && (ModuleExists(inv, m) && ex(LsmodArgv).Ok? && !ModuleLoaded(inv, m) && ex(grep).Fault? ==>
            r.outcome == Fault(ex(grep).kind, ex(grep).msg))
  {
    match TextParam(inv.params, "module")
    case None => Evaluation([], Ok(ErrorResult(inv.ruleId, inv.control, "params.module is empty")))
    case Some(m) =>
      var find := FindArgv(m);
      match inv.executor(find)
      case Fault(kind, msg) => Evaluation([find], Fault(kind, msg))
      case Ok(found) =>
        if Strip(found.stdout) == "" then
          Evaluation([find], Ok(PassedResult(inv.ruleId, inv.control, "Kernel module " + m + " does not exist")))
        else
          match inv.executor(LsmodArgv)
          case Fault(kind, msg) => Evaluation([find, LsmodArgv], Fault(kind, msg))
          case Ok(lsmod) =>
            if lsmod.code == 0 && ScanLoaded(SplitLines(lsmod.stdout), m) then
              Evaluation([find, LsmodArgv], Ok(FailedResult(inv.ruleId, inv.control, "Kernel module " + m + " is loaded")))
            else
              Evaluation([find, LsmodArgv, grep], DumpVerdict(inv.ruleId, inv.control, m, inv.executor(grep)))
  }

  /** `check_filesystem_module_disabled` as written, and as registered: its
      modprobe dump passes an empty search pattern. */
  function ModuleDisabledAsWritten(inv: Invocation): (r: Evaluation)
    ensures TextParam(inv.params, "module").None? ==>
      r == Evaluation([], Ok(ErrorResult(inv.ruleId, inv.control, "params.module is empty")))
    ensures TextParam(inv.params, "module").Some? ==>
      var m := TextParam(inv.params, "module").value;
      && r.commands <= [FindArgv(m), LsmodArgv, GrepArgvAsWritten]
      && (ModuleExists(inv, m) && (inv.executor(LsmodArgv).Fault? || ModuleLoaded(inv, m)) ==>
            r.commands == [FindArgv(m), LsmodArgv])
      && (ModuleExists(inv, m) && inv.executor(LsmodArgv).Ok? && !ModuleLoaded(inv, m) ==>
            r.commands == [FindArgv(m), LsmodArgv, GrepArgvAsWritten])
      && (r.outcome == Ok(PassedResult(inv.ruleId, inv.control, "Kernel module " + m + " is disabled")) <==>
            ModuleExists(inv, m) && inv.executor(LsmodArgv).Ok? && !ModuleLoaded(inv, m)
            && DumpShowsDisabled(inv.executor(GrepArgvAsWritten), m))
  {
    ModuleCheck(inv, GrepArgvAsWritten)
  }

  /** The same control with a non-empty match-everything pattern, so that
      its dump is a command the local executor accepts. */
  function ModuleDisabled(inv: Invocation): (r: Evaluation)
    ensures TextParam(inv.params, "module").None? ==>
      r == Evaluation([], Ok(ErrorResult(inv.ruleId, inv.control, "params.module is empty")))
    ensures TextParam(inv.params, "module").Some? ==>
      var m := TextParam(inv.params, "module").value;
      && r.commands <= [FindArgv(m), LsmodArgv, GrepArgv]
      && (ModuleExists(inv, m) && (inv.executor(LsmodArgv).Fault? || ModuleLoaded(inv, m)) ==>
            r.commands == [FindArgv(m), LsmodArgv])
      && (ModuleExists(inv, m) && inv.executor(LsmodArgv).Ok? && !ModuleLoaded(inv, m) ==>
            r.commands == [FindArgv(m), LsmodArgv, GrepArgv])
      && (r.outcome == Ok(PassedResult(inv.ruleId, inv.control, "Kernel module " + m + " is disabled")) <==>
            ModuleExists(inv, m) && inv.executor(LsmodArgv).Ok? && !ModuleLoaded(inv, m)
            && DumpShowsDisabled(inv.executor(GrepArgv), m))
  {
    ModuleCheck(inv, GrepArgv)
  }

  // -----------------------------------------------------------------------
  // filesystem.partition

  /** Asks for the mount target, filesystem type and options of the path. */
  function FindmntArgv(partition: string): seq<string> {
    ["findmnt", "-kno", "TARGET,FSTYPE,OPTIONS", "--target", partition]
  }

  /** `v` is a text that is one of `pieces`. */
  predicate TextIn(v: Value, pieces: seq<string>) {
    v.VStr? && v.s in pieces
  }

  /** The three fields of a mount line: target, type, and the rest of the
      line (the options). */
  function MountFields(stdout: string): (fields: seq<string>)
    ensures fields == [] <==> IsBlank(stdout)
    ensures |fields| <= 3
    ensures forall i | 0 <= i < |fields| :: fields[i] != ""
  {
    SplitWsEmpty(Strip(stdout), 2);
    SplitWs(Strip(stdout), 2)
  }

  /** The verdict of the partition control on the mount query's answer. */
  function MountVerdict(ruleId: string, control: string, p: string, fstypes: seq<Value>, options: seq<Value>, answer: ExecutionResult): (r: Outcome<ControlResult>)
    ensures r == Ok(SkippedResult(ruleId, control, "Unable to determine mount information for " + p)) <==>
      answer.code != 0 || IsBlank(answer.stdout)
    ensures answer.code == 0 && !IsBlank(answer.stdout) ==>
      var fields := MountFields(answer.stdout);
      && (|fields| < 3 ==>
            r == Fault(ValueError, "not enough values to unpack (expected 3, got " + NatToString(|fields|) + ")"))
      && (|fields| == 3 ==>
            && (r == Ok(FailedResult(ruleId, control, p + " is mounted with an unexpected filesystem type")) <==>
                  VStr(fields[1]) !in fstypes)
            && (r == Ok(FailedResult(ruleId, control, p + " is mounted with unexpected options")) <==>
                  VStr(fields[1]) in fstypes && exists o | o in options :: !TextIn(o, SplitOn(fields[2], ',')))
            && (r == Ok(PassedResult(ruleId, control, p + " is properly configured")) <==>
                  VStr(fields[1]) in fstypes && forall o | o in options :: TextIn(o, SplitOn(fields[2], ','))))
  {
    if answer.code != 0 || Strip(answer.stdout) == "" then
      Ok(SkippedResult(ruleId, control, "Unable to determine mount information for " + p))
    else
      var fields := MountFields(answer.stdout);
      if |fields| < 3 then
        Fault(ValueError, "not enough values to unpack (expected 3, got " + NatToString(|fields|) + ")")
      else if VStr(fields[1]) !in fstypes then
        Ok(FailedResult(ruleId, control, p + " is mounted with an unexpected filesystem type"))
      else if exists o | o in options :: !TextIn(o, SplitOn(fields[2], ',')) then
        Ok(FailedResult(ruleId, control, p + " is mounted with unexpected options"))
      else
        Ok(PassedResult(ruleId, control, p + " is properly configured"))
  }

  /** The mount query's fields read backwards: a line of target, blank run,
      type, blank run and options, with any whitespace around it, splits
      into those three; the options keep any whitespace inside them. */
  lemma MountFieldsOfLine(lead: string, target: string, s1: string, fstype: string, s2: string, opts: string, trail: string)
    requires IsBlank(lead) && IsBlank(trail)
    requires target != "" && HasNoSpace(target) && fstype != "" && HasNoSpace(fstype)
    requires s1 != "" && IsBlank(s1) && s2 != "" && IsBlank(s2)
    requires opts != "" && !IsSpace(opts[0]) && !IsSpace(opts[|opts| - 1])
    ensures MountFields(lead + target + s1 + fstype + s2 + opts + trail) == [target, fstype, opts]
  {
    var line := target + s1 + fstype + s2 + opts;
    assert lead + target + s1 + fstype + s2 + opts + trail == lead + line + trail;
    StripTrimmed(lead, line, trail);
    SplitWsThree(target, s1, fstype, s2, opts);
  }

  /** On a well-formed mount line the partition verdict passes exactly when
      the type is expected and every expected option is one of the
      comma-separated pieces of the rest of the line. */
  lemma MountLineVerdict(ruleId: string, control: string, p: string, fstypes: seq<Value>, options: seq<Value>,
                         lead: string, target: string, s1: string, fstype: string, s2: string, opts: string, trail: string,
                         stderr: string)
    requires IsBlank(lead) && IsBlank(trail)
    requires target != "" && HasNoSpace(target) && fstype != "" && HasNoSpace(fstype)
    requires s1 != "" && IsBlank(s1) && s2 != "" && IsBlank(s2)
    requires opts != "" && !IsSpace(opts[0]) && !IsSpace(opts[|opts| - 1])
    ensures var r := MountVerdict(ruleId, control, p, fstypes, options,
                                  ExecutionResult(lead + target + s1 + fstype + s2 + opts + trail, stderr, 0));
      && (r == Ok(PassedResult(ruleId, control, p + " is properly configured")) <==>
            VStr(fstype) in fstypes && forall o | o in options :: TextIn(o, SplitOn(opts, ',')))
  {
    var answer := ExecutionResult(lead + target + s1 + fstype + s2 + opts + trail, stderr, 0);
    MountFieldsOfLine(lead, target, s1, fstype, s2, opts, trail);
    assert !IsBlank(answer.stdout) by { assert answer.stdout[|lead|] == target[0]; }
    VerdictOfFields(ruleId, control, p, fstypes, options, answer, target, fstype, opts);
  }

  lemma VerdictOfFields(ruleId: string, control: string, p: string, fstypes: seq<Value>, options: seq<Value>,
                        answer: ExecutionResult, target: string, fstype: string, opts: string)
    requires answer.code == 0 && !IsBlank(answer.stdout)
    requires MountFields(answer.stdout) == [target, fstype, opts]
    ensures MountVerdict(ruleId, control, p, fstypes, options, answer) == Ok(PassedResult(ruleId, control, p + " is properly configured")) <==>
            VStr(fstype) in fstypes && forall o | o in options :: TextIn(o, SplitOn(opts, ','))
  {
  }

  /** `check_filesystem_partition`. */
  function PartitionCheck(inv: Invocation): (r: Evaluation)
    // parameters are checked in order; the first bad one is reported, and
    // nothing runs
    ensures TextParam(inv.params, "partition").None? ==>
      r == Evaluation([], Ok(ErrorResult(inv.ruleId, inv.control, "params.partition is empty")))
    ensures TextParam(inv.params, "partition").Some? && ListParam(inv.params, "fstype").None? ==>
      r == Evaluation([], Ok(ErrorResult(inv.ruleId, inv.control, "params.fstype is empty")))
    // an unhashable expected value fails building the set of expected types
    // or options, with `TypeError`
    ensures TextParam(inv.params, "partition").Some? && ListParam(inv.params, "fstype").Some?
            && FirstUnhashable(ListParam(inv.params, "fstype").value).Some? ==>
      r == Evaluation([], UnhashableFault(FirstUnhashable(ListParam(inv.params, "fstype").value).value))
    ensures TextParam(inv.params, "partition").Some? && ListParam(inv.params, "fstype").Some?
            && FirstUnhashable(ListParam(inv.params, "fstype").value).None?
            && ListParam(inv.params, "options").Some?
            && FirstUnhashable(ListParam(inv.params, "options").value).Some? ==>
      r == Evaluation([], UnhashableFault(FirstUnhashable(ListParam(inv.params, "options").value).value))
    ensures TextParam(inv.params, "partition").Some? && ListParam(inv.params, "fstype").Some?
            && FirstUnhashable(ListParam(inv.params, "fstype").value).None?
            && ListParam(inv.params, "options").None? ==>
      r == Evaluation([], Ok(ErrorResult(inv.ruleId, inv.control, "params.options is empty")))
    // with valid parameters, exactly one command: the mount query
    ensures r.commands != [] ==>
      && TextParam(inv.params, "partition").Some?
      && r.commands == [FindmntArgv(TextParam(inv.params, "partition").value)]
    ensures TextParam(inv.params, "partition").Some? && ListParam(inv.params, "fstype").Some?
            && ListParam(inv.params, "options").Some?
            && FirstUnhashable(ListParam(inv.params, "fstype").value).None?
            && FirstUnhashable(ListParam(inv.params, "options").value).None? ==>
      var p := TextParam(inv.params, "partition").value;
      var fstypes := ListParam(inv.params, "fstype").value;
      var options := ListParam(inv.params, "options").value;
      var answer := inv.executor(FindmntArgv(p));
      && r.commands == [FindmntArgv(p)]
      // the query's exception propagates; its answer is judged by `MountVerdict`
      && (answer.Fault? ==> r.outcome == Fault(answer.kind, answer.msg))
      && (answer.Ok? ==> r.outcome == MountVerdict(inv.ruleId, inv.control, p, fstypes, options, answer.value))
  {
    match TextParam(inv.params, "partition")
    case None => Evaluation([], Ok(ErrorResult(inv.ruleId, inv.control, "params.partition is empty")))
    case Some(p) =>
      match ListParam(inv.params, "fstype")
      case None => Evaluation([], Ok(ErrorResult(inv.ruleId, inv.control, "params.fstype is empty")))
      case Some(fstypes) =>
        if FirstUnhashable(fstypes).Some? then Evaluation([], UnhashableFault(FirstUnhashable(fstypes).value))
        else
          match ListParam(inv.params, "options")
          case None => Evaluation([], Ok(ErrorResult(inv.ruleId, inv.control, "params.options is empty")))
          case Some(options) =>
            if FirstUnhashable(options).Some? then Evaluation([], UnhashableFault(FirstUnhashable(options).value))
            else
              var query := FindmntArgv(p);
              match inv.executor(query)
              case Fault(kind, msg) => Evaluation([query], Fault(kind, msg))
              case Ok(answer) => Evaluation([query], MountVerdict(inv.ruleId, inv.control, p, fstypes, options, answer))
  }

  // -----------------------------------------------------------------------
  // Registration

  const ModuleDisabledControl: Control := Control("check_filesystem_module_disabled", false, ModuleDisabledAsWritten)

  const PartitionControl: Control := Control("check_filesystem_partition", false, PartitionCheck)

  /** The registry once the controls package is imported: both controls
      registered under their dotted names, and nothing else. */
  function BuiltinRegistry(): (reg: Registry)
    ensures reg.controls.Keys == {"filesystem.module_disabled", "filesystem.partition"}
    ensures reg.controls["filesystem.module_disabled"] == ModuleDisabledControl
    ensures reg.controls["filesystem.partition"] == PartitionControl
  {
    var first := Register(Empty, "filesystem.module_disabled", ModuleDisabledControl);
    Register(first.registry, "filesystem.partition", PartitionControl).registry
  }
}

=== FILE: osinfo.dfy ===
/** Host facts: the distribution and machine the audit runs on, derived from
    the raw readings of the distribution-information library and of
    `uname`, which arrive as inputs.
 */
module OsInfo {
  import opened Outcomes
  import opened Text

  /** The distribution library's raw answers: id, name, version (pretty,
      best), its own major version, and the `ID_LIKE` list. */
  datatype DistroReading = DistroReading(id: string, name: string, version: string, majorVersion: string, like: string)

  datatype UnameReading = UnameReading(release: string, machine: string, node: string)

  datatype OSInfo = OSInfo(
    distroId: string,
    name: string,
    version: string,
    majorVersion: string,
    family: string,
    kernelVersion: string,
    architecture: string,
    hostname: string)

  /** The major version: empty for an empty version, else the library's
      own answer, else the version's text before its first '.'. */
  function MajorVersion(version: string, libraryMajor: string): (m: string)
    ensures version == "" ==> m == ""
    ensures version != "" && libraryMajor != "" ==> m == libraryMajor
    ensures version != "" && libraryMajor == "" ==>
      StartsWith(version, m) && '.' !in m && (|m| < |version| ==> version[|m|] == '.')
  {
    if version == "" then ""
    else if libraryMajor != "" then libraryMajor
    else
      FirstPiece(version, '.');
      SplitOn(version, '.')[0]
  }

  /** The distribution family: the id when `like` is empty, else the first
      whitespace token of `like`. A `like` made only of whitespace has no
      first token, and taking it raises `IndexError`. */
  function Family(distroId: string, like: string): (r: Outcome<string>)
    ensures r.Fault? <==> like != "" && IsBlank(like)
    ensures r.Fault? ==> r == Fault(IndexError, "list index out of range")
    ensures r.Ok? && like == "" ==> r.value == distroId
    ensures r.Ok? && like != "" ==> IsFirstToken(like, r.value)
  {
    if like == "" then Ok(distroId)
    else
      var tokens := SplitWs(like, -1);
      SplitWsEmpty(like, -1);
      if tokens == [] then Fault(IndexError, "list index out of range")
      else
        FirstTokenOccurs(like);
        Ok(tokens[0])
  }

  /** `detect_os()` on the given readings. */
  function DetectOs(d: DistroReading, u: UnameReading): (r: Outcome<OSInfo>)
    ensures r.Fault? <==> d.like != "" && IsBlank(d.like)
    ensures r.Fault? ==> r == Fault(IndexError, "list index out of range")
    ensures r.Ok? ==>
      var o := r.value;
      && o.distroId == Strip(Lower(d.id))
      && o.name == Strip(d.name)
      && o.version == Strip(d.version)
      && (o.version == "" ==> o.majorVersion == "")
      && (o.version != "" && d.majorVersion != "" ==> o.majorVersion == d.majorVersion)
      && (o.version != "" && d.majorVersion == "" ==>
            StartsWith(o.version, o.majorVersion) && '.' !in o.majorVersion
            && (|o.majorVersion| < |o.version| ==> o.version[|o.majorVersion|] == '.'))
      && (d.like == "" ==> o.family == o.distroId)
      && (d.like != "" ==> IsFirstToken(d.like, o.family))
      && o.kernelVersion == u.release && o.architecture == u.machine && o.hostname == u.node
  {
    var distroId := Strip(Lower(d.id));
    var version := Strip(d.version);
    match Family(distroId, d.like)
    case Fault(kind, msg) => Fault(kind, msg)
    case Ok(family) =>
      Ok(OSInfo(distroId, Strip(d.name), version, MajorVersion(version, d.majorVersion), family,
                u.release, u.machine, u.node))
  }

  /** `t` is the first whitespace-separated token of `s`: a run of
      non-whitespace that follows only whitespace and ends at whitespace or
      at the end of `s`. */
  predicate IsFirstToken(s: string, t: string) {
    && t != "" && HasNoSpace(t)
    && exists i | 0 <= i <= |s| :: IsBlank(s[..i]) && OccursAt(s, t, i) && (i + |t| == |s| || IsSpace(s[i + |t|]))
  }

  /** The first field of the whitespace split is the first token. */
  lemma {:induction false} FirstTokenOccurs(s: string)
    ensures SplitWs(s, -1) != [] ==> IsFirstToken(s, SplitWs(s, -1)[0])
  {
    SplitWsFieldsHaveNoSpace(s, -1);
    var i := LeadingSpaces(s);
    if i < |s| {
      var rest := s[i..];
      var j := FieldEnd(rest);
      var t := rest[..j];
      assert SplitWs(s, -1)[0] == t;
      assert OccursAt(s, t, i);
      assert i + |t| == |s| || IsSpace(s[i + |t|]) by {
        if i + |t| < |s| {
          assert s[i + |t|] == rest[j];
        }
      }
    }
  }
}

=== FILE: outcomes.dfy ===
/** Failure-carrying wrappers shared by the whole model.

    The audit code signals failures with Python exceptions. Here every
    operation that can raise returns an `Outcome`: either the value it
    returns, or the exception it raises, given by its class and the text it
    was constructed with.
 */
module Outcomes {

  /** An optional value (Python's `None` versus a value). */
  datatype Option<+T> = None | Some(value: T) {
    function GetOr(default: T): T {
      match this
      case Some(v) => v
      case None => default
    }
  }

  /** The exception classes that can reach the engine in this model. */
  datatype FaultKind =
    | ValueError
    | KeyError
    | TypeError
    | IndexError
    | ExecutorError
    | PolicyError
    | ControlDefect   // any other exception class a third-party control may raise

  /** The value an operation returns, or the exception it raises. */
  datatype Outcome<+T> = Ok(value: T) | Fault(kind: FaultKind, msg: string)

  /** `str(exc)`: the exception's text. A `KeyError` shows its argument quoted
      (as `repr` would, for a text without quotes or backslashes). */
  function Describe(kind: FaultKind, msg: string): string {
    if kind == KeyError then "'" + msg + "'" else msg
  }
}

=== FILE: policy_loader.dfy ===
/** Structural validation of a parsed policy document: the checks the
    loader makes after the YAML text has been parsed, turning a mapping with
    `category` and `rules` into a `Policy`, or raising `PolicyError`.
 */
module PolicyLoader {
  import opened Outcomes
  import opened Values
  import opened Text
  import opened Rules

  predicate IsNonEmptyText(v: Value) {
    v.VStr? && v.s != ""
  }

  /** `_parse_rule(i, rule)`. */
  function ParseRule(i: nat, entry: Value): (r: Outcome<Rule>)
    ensures r.Fault? ==> r.kind == PolicyError
    ensures !entry.VMap? ==> r == Fault(PolicyError, "rules[" + NatToString(i) + "] has to be a mapping")
    ensures entry.VMap? ==>
      var ruleId := Lookup(entry.entries, "rule_id");
      var control := Lookup(entry.entries, "control");
      && (!IsNonEmptyText(ruleId) ==> r == Fault(PolicyError, "No rules[" + NatToString(i) + "].rule_id"))
      && (IsNonEmptyText(ruleId) && !IsNonEmptyText(control) ==>
            r == Fault(PolicyError, "No rules[" + NatToString(i) + "].control"))
      // an absent `params` is an empty mapping; a present one must be a mapping
      && ("params" !in entry.entries && IsNonEmptyText(ruleId) && IsNonEmptyText(control) ==>
            r == Ok(Rule(ruleId.s, control.s, map[])))
      && ("params" in entry.entries && IsNonEmptyText(ruleId) && IsNonEmptyText(control) ==>
            if entry.entries["params"].VMap?
            then r == Ok(Rule(ruleId.s, control.s, entry.entries["params"].entries))
            else r == Fault(PolicyError, "rules[" + NatToString(i) + "].params has to be a mapping"))
  {
    if !entry.VMap? then Fault(PolicyError, "rules[" + NatToString(i) + "] has to be a mapping")
    else
      var ruleId := Lookup(entry.entries, "rule_id");
      var control := Lookup(entry.entries, "control");
      var params := if "params" in entry.entries then entry.entries["params"] else VMap(map[]);
      if !IsNonEmptyText(ruleId) then Fault(PolicyError, "No rules[" + NatToString(i) + "].rule_id")
      else if !IsNonEmptyText(control) then Fault(PolicyError, "No rules[" + NatToString(i) + "].control")
      else if !params.VMap? then Fault(PolicyError, "rules[" + NatToString(i) + "].params has to be a mapping")
      else Ok(Rule(ruleId.s, control.s, params.entries))
  }

  /** The loader's loop over the rule entries from index `from` on: the
      first entry that fails to parse decides the error. */
  function ParseRules(entries: seq<Value>, from: nat): (r: Outcome<seq<Rule>>)
    requires from <= |entries|
    ensures r.Ok? <==> forall j | from <= j < |entries| :: ParseRule(j, entries[j]).Ok?
    ensures r.Ok? ==>
      && |r.value| == |entries| - from
      && forall j | from <= j < |entries| :: ParseRule(j, entries[j]) == Ok(r.value[j - from])
    ensures r.Fault? ==>
      exists j | from <= j < |entries| ::
        && ParseRule(j, entries[j]) == Fault(r.kind, r.msg)
        && forall k | from <= k < j :: ParseRule(k, entries[k]).Ok?
    decreases |entries| - from
  {
    if from == |entries| then Ok([])
    else
      match ParseRule(from, entries[from])
      case Fault(kind, msg) => Fault(kind, msg)
      case Ok(rule) =>
        match ParseRules(entries, from + 1)
        case Fault(kind, msg) => Fault(kind, msg)
        case Ok(rest) =>
          assert ([rule] + rest)[1..] == rest;
          Ok([rule] + rest)
  }

  /** `load_policy` after parsing: `raw` is the parsed document. */
  function LoadPolicy(raw: Value): (r: Outcome<Policy>)
    ensures r.Fault? ==> r.kind == PolicyError
    ensures !raw.VMap? ==> r == Fault(PolicyError, "Policy root has to be a mapping")
    ensures raw.VMap? && !IsNonEmptyText(Lookup(raw.entries, "category")) ==>
      r == Fault(PolicyError, "Unexpected 'category' format")
    ensures raw.VMap? && IsNonEmptyText(Lookup(raw.entries, "category"))
            && (!Lookup(raw.entries, "rules").VList? || Lookup(raw.entries, "rules").items == []) ==>
      r == Fault(PolicyError, "Unexpected 'rules' format")
    // on success: the category kept, one rule per entry, in order
    ensures r.Ok? ==>
      && raw.VMap?
      && r.value.category == Lookup(raw.entries, "category").s
      && Lookup(raw.entries, "rules").VList?
      && |r.value.rules| == |Lookup(raw.entries, "rules").items| > 0
      && forall j | 0 <= j < |r.value.rules| ::
           ParseRule(j, Lookup(raw.entries, "rules").items[j]) == Ok(r.value.rules[j])
  {
    if !raw.VMap? then Fault(PolicyError, "Policy root has to be a mapping")
    else
      var category := Lookup(raw.entries, "category");
      var rules := Lookup(raw.entries, "rules");
      if !IsNonEmptyText(category) then Fault(PolicyError, "Unexpected 'category' format")
      else if !rules.VList? || rules.items == [] then Fault(PolicyError, "Unexpected 'rules' format")
      else
        match ParseRules(rules.items, 0)
        case Fault(kind, msg) => Fault(kind, msg)
        case Ok(parsed) => Ok(Policy(category.s, parsed))
  }

  /** A document passes exactly when its root is a mapping with a non-empty
      text category and a non-empty rule list whose every entry parses; the
      first entry that does not parse decides the error. */
  lemma LoadPolicyAccepts(raw: Value)
    ensures LoadPolicy(raw).Ok? <==>
      && raw.VMap?
      && IsNonEmptyText(Lookup(raw.entries, "category"))
      && Lookup(raw.entries, "rules").VList? && Lookup(raw.entries, "rules").items != []
      && forall j | 0 <= j < |Lookup(raw.entries, "rules").items| :: ParseRule(j, Lookup(raw.entries, "rules").items[j]).Ok?
  {
  }

  /** A rule entry parses exactly when it is a mapping with non-empty text
      `rule_id` and `control` and, if present, a mapping `params`; the parsed
      rule copies those fields. */
  lemma ParseRuleAccepts(i: nat, entry: Value)
    ensures ParseRule(i, entry).Ok? <==>
      && entry.VMap?
      && IsNonEmptyText(Lookup(entry.entries, "rule_id"))
      && IsNonEmptyText(Lookup(entry.entries, "control"))
      && ("params" in entry.entries ==> entry.entries["params"].VMap?)
    ensures ParseRule(i, entry).Ok? ==>
      && ParseRule(i, entry).value.ruleId == entry.entries["rule_id"].s
      && ParseRule(i, entry).value.control == entry.entries["control"].s
  {
  }
}

=== FILE: registry.dfy ===
/** The control registry: an append-only table from control name to control
    function, filled once at start-up, plus the shape every control has.
 */
module Registry {
  import opened Outcomes
  import opened Values
  import opened Text
  import opened Results
  import opened Executors
  import opened OsInfo

  /** What the engine hands a control: the rule's identity and parameters,
      the executor, and the (opaque) host facts. */
  datatype Invocation = Invocation(
    ruleId: string,
    control: string,
    params: map<string, Value>,
    executor: Executor,
    osInfo: Option<OSInfo>)

  /** What a control does with an invocation: the argument vectors it sends
      to the executor, in order, and the result it returns or the exception
      it raises. */
  datatype Evaluation = Evaluation(commands: seq<seq<string>>, outcome: Outcome<ControlResult>)

  /** A control function. `qualname` is the function's name as exception
      messages show it; `acceptsOsInfo` says whether its signature has an
      `os_info` keyword (every control takes `rule_id`, `control`, `params`
      and `executor`). */
  datatype Control = Control(qualname: string, acceptsOsInfo: bool, eval: Invocation -> Evaluation)

  datatype Registry = Registry(controls: map<string, Control>)

  const Empty: Registry := Registry(map[])

  /** The registry after a registration attempt, and what the attempt
      returned (the function itself) or raised. */
  datatype Registration = Registration(registry: Registry, outcome: Outcome<Control>)

  /** `register(name)(f)`: binds a fresh name and hands the function back;
      a name already bound raises `ValueError` and changes nothing. */
  function Register(reg: Registry, name: string, f: Control): (r: Registration)
    ensures name !in reg.controls ==>
      && r.outcome == Ok(f)
      && name in r.registry.controls && r.registry.controls[name] == f
      && r.registry.controls.Keys == reg.controls.Keys + {name}
    ensures name in reg.controls ==>
      r.outcome == Fault(ValueError, "Control registered: " + name) && r.registry == reg
    ensures forall other | other != name && other in reg.controls ::
      other in r.registry.controls && r.registry.controls[other] == reg.controls[other]
    ensures forall other | other != name :: other in r.registry.controls <==> other in reg.controls
  {
    if name in reg.controls then
      Registration(reg, Fault(ValueError, "Control registered: " + name))
    else
      Registration(Registry(reg.controls[name := f]), Ok(f))
  }

  /** `get(name)`: the bound function, or `KeyError` for an unknown name. */
  function Get(reg: Registry, name: string): (r: Outcome<Control>)
    ensures name in reg.controls <==> r.Ok?
    ensures r.Ok? ==> r.value == reg.controls[name]
    ensures r.Fault? ==> r == Fault(KeyError, "Unknown control: " + name)
  {
    if name in reg.controls then Ok(reg.controls[name]) else Fault(KeyError, "Unknown control: " + name)
  }

  /** `has(name)`: membership; it never raises and changes nothing. */
  function Has(reg: Registry, name: string): (b: bool)
    ensures b <==> Get(reg, name).Ok?
  {
    name in reg.controls
  }

  /** After a successful registration, `get` returns exactly the registered
      function and `has` holds; the lookup of every other name is as before. */
  lemma RegisterThenGet(reg: Registry, name: string, f: Control, other: string)
    requires !Has(reg, name)
    ensures Has(Register(reg, name, f).registry, name)
    ensures Get(Register(reg, name, f).registry, name) == Ok(f)
    ensures other != name ==> Get(Register(reg, name, f).registry, other) == Get(reg, other)
  {
  }

  /** A second registration under the same name fails and the first
      binding stays in place. */
  lemma DuplicateKeepsFirst(reg: Registry, name: string, f1: Control, f2: Control)
    requires !Has(reg, name)
    ensures var once := Register(reg, name, f1).registry;
      && Register(once, name, f2).outcome.Fault?
      && Get(Register(once, name, f2).registry, name) == Ok(f1)
  {
  }

  // -----------------------------------------------------------------------
  // Listing

  predicate StrictlySorted(names: seq<string>) {
    forall i, j | 0 <= i < j < |names| :: Below(names[i], names[j])
  }

  /** Inserts a new name into a strictly sorted list at its place. */
  function Insert(names: seq<string>, x: string): (r: seq<string>)
    requires StrictlySorted(names) && x !in names
    ensures StrictlySorted(r)
    ensures forall y :: y in r <==> y in names || y == x
    ensures |r| == |names| + 1
  {
    if names == [] then [x]
    else if Below(x, names[0]) then
      forall j | 0 < j < |names| ensures Below(x, names[j]) {
        BelowTransitive(x, names[0], names[j]);
      }
      [x] + names
    else
      BelowTotal(x, names[0]);
      var tail := Insert(names[1..], x);
      assert forall y | y in tail :: Below(names[0], y) by {
        forall y | y in tail ensures Below(names[0], y) {
          if y != x {
            var j :| 0 <= j < |names[1..]| && names[1..][j] == y;
            assert names[j + 1] == y;
          }
        }
      }
      [names[0]] + tail
  }

  /** `list_controls()`: the bound names in ascending order, each once. */
  method ListControls(reg: Registry) returns (names: seq<string>)
    ensures StrictlySorted(names)
    ensures forall n :: n in names <==> n in reg.controls
    ensures |names| == |reg.controls|
  {
    names := [];
    var rest := reg.controls.Keys;
    while rest != {}
      invariant rest <= reg.controls.Keys
      invariant StrictlySorted(names)
      invariant forall n :: n in names <==> n in reg.controls && n !in rest
      invariant |names| + |rest| == |reg.controls|
      decreases rest
    {
      var k :| k in rest;
      names := Insert(names, k);
      rest := rest - {k};
    }
  }
}

=== FILE: report.dfy ===
/** Report aggregation: per-status counters over the results, packaged with
    the policy's category and the host facts for the renderer.
 */
module Reports {
  import opened Outcomes
  import opened Results
  import opened Rules
  import opened OsInfo

  /** The report structure (without its generation timestamp). `summary`
      maps each status literal to a count. */
  datatype Report = Report(
    category: string,
    results: seq<ControlResult>,
    summary: map<string, int>,
    osInfo: Option<OSInfo>)

  /** How many results carry status `s`: the reference the summary is
      checked against. */
  function Count(results: seq<ControlResult>, s: Status): nat {
    if results == [] then 0
    else Count(results[..|results| - 1], s) + (if results[|results| - 1].status == s then 1 else 0)
  }

  /** Sum of the five counters. */
  function Total(summary: map<string, int>): int
    requires StatusLiterals <= summary.Keys
  {
    summary["PASSED"] + summary["FAILED"] + summary["WARNING"] + summary["SKIPPED"] + summary["ERROR"]
  }

  /** Every result is counted under exactly one status. */
  lemma {:induction false} CountsPartition(results: seq<ControlResult>)
    ensures Count(results, Passed) + Count(results, Failed) + Count(results, Warning)
          + Count(results, Skipped) + Count(results, Error) == |results|
  {
    if results != [] {
      CountsPartition(results[..|results| - 1]);
    }
  }

  /** `build_report(policy=policy, results=results, os_info=os_info)`. */
  method BuildReport(policy: Policy, results: seq<ControlResult>, osInfo: Option<OSInfo>) returns (report: Report)
    ensures report.summary.Keys == StatusLiterals
    ensures forall s: Status :: report.summary[s.Literal()] == Count(results, s)
    ensures Total(report.summary) == |results|
    ensures report.results == results
    ensures report.category == policy.category
    ensures report.osInfo == osInfo
  {
    var summary := map["PASSED" := 0, "FAILED" := 0, "WARNING" := 0, "SKIPPED" := 0, "ERROR" := 0];
    var i := 0;
    while i < |results|
      invariant 0 <= i <= |results|
      invariant summary.Keys == StatusLiterals
      invariant forall s: Status :: summary[s.Literal()] == Count(results[..i], s)
    {
      var lit := results[i].status.Literal();
      summary := summary[lit := summary[lit] + 1];
      assert results[..i + 1][..i] == results[..i];
      i := i + 1;
    }
    assert results[..i] == results;
    CountsPartition(results);
    report := Report(policy.category, results, summary, osInfo);
  }
}

=== FILE: results.dfy ===
/** The outcome of evaluating one rule: who produced it, one of five
    statuses, and a human-readable message.
 */
module Results {
  import opened Outcomes

  /** The five statuses a result can carry. */
  datatype Status = Passed | Failed | Warning | Skipped | Error {
    /** The literal the status is written as in results and report summaries. */
    function Literal(): string {
      match this
      case Passed => "PASSED"
      case Failed => "FAILED"
      case Warning => "WARNING"
      case Skipped => "SKIPPED"
      case Error => "ERROR"
    }
  }

  /** The five status literals, which are also the report's summary keys. */
  const StatusLiterals: set<string> := {"PASSED", "FAILED", "WARNING", "SKIPPED", "ERROR"}

  /** The status a literal names, if any. */
  function ParseStatus(literal: string): (s: Option<Status>)
    ensures s.Some? <==> literal in StatusLiterals
    ensures s.Some? ==> s.value.Literal() == literal
  {
    match literal
    case "PASSED" => Some(Passed)
    case "FAILED" => Some(Failed)
    case "WARNING" => Some(Warning)
    case "SKIPPED" => Some(Skipped)
    case "ERROR" => Some(Error)
    case _ => None
  }

  /** Every status is written as one of the five literals, distinct statuses
      as distinct literals, and the literal reads back as the status. */
  lemma StatusLiteralRoundTrip(s: Status, t: Status)
    ensures s.Literal() in StatusLiterals
    ensures ParseStatus(s.Literal()) == Some(s)
    ensures s.Literal() == t.Literal() ==> s == t
  {
  }

  datatype ControlResult = ControlResult(ruleId: string, control: string, status: Status, message: string)

  function PassedResult(ruleId: string, control: string, message: string): (r: ControlResult)
    ensures r.status == Passed && r.status.Literal() == "PASSED"
    ensures r.ruleId == ruleId && r.control == control && r.message == message
  {
    ControlResult(ruleId, control, Passed, message)
  }

  function FailedResult(ruleId: string, control: string, message: string): (r: ControlResult)
    ensures r.status == Failed && r.status.Literal() == "FAILED"
    ensures r.ruleId == ruleId && r.control == control && r.message == message
  {
    ControlResult(ruleId, control, Failed, message)
  }

  function WarningResult(ruleId: string, control: string, message: string): (r: ControlResult)
    ensures r.status == Warning && r.status.Literal() == "WARNING"
    ensures r.ruleId == ruleId && r.control == control && r.message == message
  {
    ControlResult(ruleId, control, Warning, message)
  }

  function SkippedResult(ruleId: string, control: string, message: string): (r: ControlResult)
    ensures r.status == Skipped && r.status.Literal() == "SKIPPED"
    ensures r.ruleId == ruleId && r.control == control && r.message == message
  {
    ControlResult(ruleId, control, Skipped, message)
  }

  function ErrorResult(ruleId: string, control: string, message: string): (r: ControlResult)
    ensures r.status == Error && r.status.Literal() == "ERROR"
    ensures r.ruleId == ruleId && r.control == control && r.message == message
  {
    ControlResult(ruleId, control, Error, message)
  }
}

=== FILE: rules.dfy ===
/** A policy: a category and the rules to evaluate, in order. A rule binds
    an identifier and parameters to a control by name. (The rule record is
    declared with a `title` field but every reader and writer of it uses
    `control`; the model follows the readers and writers.)
 */
module Rules {
  import opened Values

  datatype Rule = Rule(ruleId: string, control: string, params: map<string, Value>)

  datatype Policy = Policy(category: string, rules: seq<Rule>)
}

=== FILE: text.dfy ===
/** The text operations the audit code borrows from Python's `str`, with
    Python's semantics: `strip()`, `lower()`, `capitalize()`,
    `rstrip("\n")`, `splitlines()`, `split()` with and without a separator,
    `startswith`, substring `in`, `<` on text, `str(int)`, and the POSIX
    path helpers `os.path.isabs` / `os.path.basename`.

    Case mapping covers ASCII letters only; whitespace and line boundaries
    are Python's full sets.
 */
module Text {

  /** Python's `str.isspace()` for one character: the characters `strip()`
      and `split()` without a separator treat as whitespace. */
  predicate IsSpace(c: char) {
    || c == ' '
    || ('\t' <= c <= '\r')
    || ('\U{1c}' <= c <= '\U{1f}')
    || c == '\U{85}' || c == '\U{a0}' || c == '\U{1680}'
    || ('\U{2000}' <= c <= '\U{200a}')
    || c == '\U{2028}' || c == '\U{2029}' || c == '\U{202f}' || c == '\U{205f}' || c == '\U{3000}'
  }

  /** The characters `str.splitlines()` breaks at (`"\r\n"` counts once). */
  predicate IsLineBreak(c: char) {
    || ('\n' <= c <= '\r')
    || ('\U{1c}' <= c <= '\U{1e}')
    || c == '\U{85}' || c == '\U{2028}' || c == '\U{2029}'
  }

  /** True when `s.strip()` is empty. */
  predicate IsBlank(s: string) {
    forall i | 0 <= i < |s| :: IsSpace(s[i])
  }

  predicate StartsWith(s: string, prefix: string) {
    |prefix| <= |s| && s[..|prefix|] == prefix
  }

  /** Python's `sub in s` on text. */
  predicate Contains(s: string, sub: string) {
    exists i | 0 <= i <= |s| - |sub| :: OccursAt(s, sub, i)
  }

  /** `sub` occurs in `s` starting at index `i`. */
  predicate OccursAt(s: string, sub: string, i: int) {
    0 <= i && i + |sub| <= |s| && s[i..i + |sub|] == sub
  }

  // ---------------------------------------------------------------------
  // strip / lower / capitalize / rstrip

  function LeadingSpaces(s: string): (k: nat)
    ensures k <= |s|
    ensures forall i | 0 <= i < k :: IsSpace(s[i])
    ensures IsBlank(s[..k])
    ensures k < |s| ==> !IsSpace(s[k])
  {
    if s == [] || !IsSpace(s[0]) then 0 else 1 + LeadingSpaces(s[1..])
  }

  function TrailingSpaces(s: string): (k: nat)
    ensures k <= |s|
    ensures forall i | |s| - k <= i < |s| :: IsSpace(s[i])
    ensures IsBlank(s[|s| - k..])
    ensures k < |s| ==> !IsSpace(s[|s| - 1 - k])
  {
    if s == [] || !IsSpace(s[|s| - 1]) then 0 else 1 + TrailingSpaces(s[..|s| - 1])
  }

  /** `s.strip()`: `s` without its leading and trailing whitespace. */
  function Strip(s: string): (r: string)
    ensures r == "" <==> IsBlank(s)
    ensures r != "" ==> !IsSpace(r[0]) && !IsSpace(r[|r| - 1])
    ensures exists i, j | 0 <= i <= j <= |s| :: r == s[i..j] && IsBlank(s[..i]) && IsBlank(s[j..])
  {
    var i := LeadingSpaces(s);
    var rest := s[i..];
    var k := TrailingSpaces(rest);
    assert i < |s| ==> !IsSpace(rest[0]);
    assert s[i + |rest| - k..] == rest[|rest| - k..];
    assert rest[..|rest| - k] == s[i..i + |rest| - k];
    rest[..|rest| - k]
  }

  /** Stripping removes exactly the blank runs around a text whose own
      ends are not whitespace. */
  lemma StripTrimmed(lead: string, core: string, trail: string)
    requires IsBlank(lead) && IsBlank(trail)
    requires core != "" && !IsSpace(core[0]) && !IsSpace(core[|core| - 1])
    ensures Strip(lead + core + trail) == core
  {
    var s := lead + core + trail;
    assert s[|lead|] == core[0];
    var i := LeadingSpaces(s);
    assert i == |lead|;
    var rest := s[i..];
    assert rest == core + trail;
    assert rest[|core| - 1] == core[|core| - 1];
    assert forall k | |core| <= k < |rest| :: rest[k] == trail[k - |core|];
    assert TrailingSpaces(rest) == |trail|;
    assert rest[..|rest| - |trail|] == core;
  }

  function LowerChar(c: char): char {
    if 'A' <= c <= 'Z' then (c as int + 32) as char else c
  }

  function UpperChar(c: char): char {
    if 'a' <= c <= 'z' then (c as int - 32) as char else c
  }

  /** `s.lower()`: every ASCII capital becomes its small letter, and
      nothing else changes. */
  function Lower(s: string): (r: string)
    ensures |r| == |s|
    ensures forall i | 0 <= i < |s| :: !('A' <= r[i] <= 'Z')
    ensures forall i | 0 <= i < |s| :: 'A' <= s[i] <= 'Z' ==> r[i] as int == s[i] as int + 32
    ensures forall i | 0 <= i < |s| :: !('A' <= s[i] <= 'Z') ==> r[i] == s[i]
  {
    seq(|s|, i requires 0 <= i < |s| => LowerChar(s[i]))
  }

  /** `s.capitalize()`: the first character upper-cased, every other one
      lower-cased. */
  function Capitalize(s: string): (r: string)
    ensures |r| == |s|
    ensures s != "" ==> r[0] == UpperChar(s[0]) && r[1..] == Lower(s[1..])
  {
    if s == "" then "" else [UpperChar(s[0])] + Lower(s[1..])
  }

  /** `s.rstrip("\n")`: removes EVERY trailing line feed, not just one. */
  function RStripNewlines(s: string): (r: string)
    ensures |r| <= |s| && r == s[..|r|]
    ensures forall i | |r| <= i < |s| :: s[i] == '\n'
    ensures r == "" || r[|r| - 1] != '\n'
  {
    if s != [] && s[|s| - 1] == '\n' then RStripNewlines(s[..|s| - 1]) else s
  }

  // ---------------------------------------------------------------------
  // splitting

  function LineEnd(s: string): (k: nat)
    ensures k <= |s|
    ensures forall i | 0 <= i < k :: !IsLineBreak(s[i])
    ensures k < |s| ==> IsLineBreak(s[k])
  {
    if s == [] || IsLineBreak(s[0]) then 0 else 1 + LineEnd(s[1..])
  }

  predicate IsSingleLine(line: string) {
    forall j | 0 <= j < |line| :: !IsLineBreak(line[j])
  }

  /** `s.splitlines()`: the lines of `s`, without their line boundaries; a
      final boundary does not start an extra empty line. */
  function SplitLines(s: string): (lines: seq<string>)
    ensures forall i | 0 <= i < |lines| :: IsSingleLine(lines[i])
    ensures s == "" <==> lines == []
    decreases |s|
  {
    if s == "" then []
    else
      var k := LineEnd(s);
      if k == |s| then [s]
      else
        var next := if s[k] == '\r' && k + 1 < |s| && s[k + 1] == '\n' then k + 2 else k + 1;
        [s[..k]] + SplitLines(s[next..])
  }

  /** Every character of `part` occurs in `whole`. */
  predicate CharsWithin(part: string, whole: string) {
    forall k | 0 <= k < |part| :: part[k] in whole
  }

  lemma CharsWithinSuffix(part: string, s: string, n: nat)
    requires n <= |s| && CharsWithin(part, s[n..])
    ensures CharsWithin(part, s)
  {
    forall k | 0 <= k < |part| ensures part[k] in s {
      var j :| 0 <= j < |s[n..]| && s[n..][j] == part[k];
      assert s[n + j] == part[k];
    }
  }

  /** Lines only hold characters of the text they were split from. */
  lemma {:induction false} SplitLinesCharsWithin(s: string)
    ensures forall i | 0 <= i < |SplitLines(s)| :: CharsWithin(SplitLines(s)[i], s)
    decreases |s|
  {
    if s != "" {
      var k := LineEnd(s);
      if k == |s| {
        assert SplitLines(s) == [s];
        assert CharsWithin(s, s);
      } else {
        var next := if s[k] == '\r' && k + 1 < |s| && s[k + 1] == '\n' then k + 2 else k + 1;
        var tail := SplitLines(s[next..]);
        SplitLinesCharsWithin(s[next..]);
        assert SplitLines(s) == [s[..k]] + tail;
        assert CharsWithin(s[..k], s) by {
          forall j | 0 <= j < k ensures s[..k][j] in s {
            assert s[..k][j] == s[j];
          }
        }
        forall i | 0 <= i < |tail| ensures CharsWithin(tail[i], s) {
          CharsWithinSuffix(tail[i], s, next);
        }
      }
    }
  }

  /** A line without boundaries is its own only line. */
  lemma SplitLinesSingle(line: string)
    requires line != "" && IsSingleLine(line)
    ensures SplitLines(line) == [line]
  {
    assert LineEnd(line) == |line|;
  }

  /** A line ended by any one-character boundary (a carriage return only
      when no line feed follows it) is split off, and the rest is split
      on its own; a final boundary leaves no empty line behind. */
  lemma SplitLinesStep(line: string, b: char, rest: string)
    requires IsSingleLine(line) && IsLineBreak(b)
    requires !(b == '\r' && rest != "" && rest[0] == '\n')
    ensures SplitLines(line + [b] + rest) == [line] + SplitLines(rest)
  {
    var s := line + [b] + rest;
    assert forall j | 0 <= j < |line| :: s[j] == line[j];
    assert s[|line|] == b;
    assert LineEnd(s) == |line|;
    assert s[..|line|] == line && s[|line| + 1..] == rest;
  }

  /** "\r\n" is one boundary, not two. */
  lemma SplitLinesCrLf(line: string, rest: string)
    requires IsSingleLine(line)
    ensures SplitLines(line + "\r\n" + rest) == [line] + SplitLines(rest)
  {
    var s := line + "\r\n" + rest;
    assert forall j | 0 <= j < |line| :: s[j] == line[j];
    assert s[|line|] == '\r' && s[|line| + 1] == '\n';
    assert IsLineBreak('\r');
    assert LineEnd(s) == |line|;
    assert s[..|line|] == line && s[|line| + 2..] == rest;
  }

  /** The splitting read backwards: lines without line boundaries, the
      last of them not empty, joined with '\n' split back into themselves. */
  lemma {:induction false} SplitLinesJoin(lines: seq<string>)
    requires lines != [] && lines[|lines| - 1] != ""
    requires forall i | 0 <= i < |lines| :: IsSingleLine(lines[i])
    ensures SplitLines(Join(lines, '\n')) == lines
    decreases |lines|
  {
    var line := lines[0];
    if |lines| == 1 {
      assert Join(lines, '\n') == line;
      assert LineEnd(line) == |line|;
    } else {
      var rest := lines[1..];
      var s := Join(lines, '\n');
      assert lines == [line] + rest;
      JoinCons(line, rest, '\n');
      assert s == line + ['\n'] + Join(rest, '\n');
      var k := LineEnd(s);
      assert forall j | 0 <= j < |line| :: s[j] == line[j];
      assert s[|line|] == '\n';
      assert k == |line|;
      assert s[..k] == line && s[k + 1..] == Join(rest, '\n');
      SplitLinesJoin(rest);
    }
  }

  /** A text that starts with, or contains, `sub` holds every character
      of `sub`. */
  lemma OccurrenceCharsWithin(s: string, sub: string)
    ensures StartsWith(s, sub) ==> CharsWithin(sub, s)
    ensures Contains(s, sub) ==> CharsWithin(sub, s)
  {
    if StartsWith(s, sub) {
      forall k | 0 <= k < |sub| ensures sub[k] in s {
        assert s[k] == sub[k];
      }
    }
    if Contains(s, sub) {
      var i :| 0 <= i <= |s| - |sub| && OccursAt(s, sub, i);
      forall k | 0 <= k < |sub| ensures sub[k] in s {
        assert s[i + k] == sub[k];
      }
    }
  }

  /** Lower-casing never introduces a character that is not a lower-case
      letter. */
  lemma LowerAbsentChar(s: string, c: char)
    requires c !in s && !('a' <= c <= 'z')
    ensures c !in Lower(s)
  {
    forall i | 0 <= i < |s| ensures Lower(s)[i] != c {
      assert s[i] != c;
    }
  }

  function FieldEnd(s: string): (k: nat)
    ensures k <= |s|
    ensures forall i | 0 <= i < k :: !IsSpace(s[i])
    ensures k < |s| ==> IsSpace(s[k])
  {
    if s == [] || IsSpace(s[0]) then 0 else 1 + FieldEnd(s[1..])
  }

  predicate HasNoSpace(s: string) {
    forall j | 0 <= j < |s| :: !IsSpace(s[j])
  }

  /** `s.split(None, maxsplit)`: at most `maxsplit` splits at runs of
      whitespace (a negative `maxsplit` means no limit, so `s.split()` is
      `SplitWs(s, -1)`). Leading whitespace is skipped; once the limit is
      reached, the rest of the text after the whitespace is the last field. */
  function SplitWs(s: string, maxsplit: int): (fields: seq<string>)
    ensures forall i | 0 <= i < |fields| :: fields[i] != ""
    ensures maxsplit >= 0 ==> |fields| <= maxsplit + 1
    decreases |s|
  {
    var i := LeadingSpaces(s);
    if i == |s| then []
    else if maxsplit == 0 then [s[i..]]
    else
      var rest := s[i..];
      var j := FieldEnd(rest);
      assert rest[0] == s[i];
      [rest[..j]] + SplitWs(rest[j..], if maxsplit > 0 then maxsplit - 1 else maxsplit)
  }

  /** Splitting yields no field exactly when the text is blank. */
  lemma {:induction false} SplitWsEmpty(s: string, maxsplit: int)
    ensures SplitWs(s, maxsplit) == [] <==> IsBlank(s)
  {
    var i := LeadingSpaces(s);
    if i == |s| {
      assert s[..i] == s;
    } else {
      assert !IsSpace(s[i]);
    }
  }

  /** Without a limit, no field contains whitespace. */
  lemma {:induction false} SplitWsFieldsHaveNoSpace(s: string, maxsplit: int)
    requires maxsplit < 0
    ensures forall k | 0 <= k < |SplitWs(s, maxsplit)| :: HasNoSpace(SplitWs(s, maxsplit)[k])
    decreases |s|
  {
    var i := LeadingSpaces(s);
    if i < |s| {
      var rest := s[i..];
      var j := FieldEnd(rest);
      assert rest[0] == s[i];
      SplitWsFieldsHaveNoSpace(rest[j..], maxsplit);
      var tail := SplitWs(rest[j..], maxsplit);
      assert SplitWs(s, maxsplit) == [rest[..j]] + tail;
      assert HasNoSpace(rest[..j]);
    }
  }

  /** The splitting read backwards: a blank run, then a field without
      whitespace that ends at whitespace or at the end, splits into that
      field followed by the split of what remains, with one split fewer. */
  lemma SplitWsField(lead: string, field: string, rest: string, maxsplit: int)
    requires IsBlank(lead) && field != "" && HasNoSpace(field)
    requires rest == "" || IsSpace(rest[0])
    requires maxsplit != 0
    ensures SplitWs(lead + field + rest, maxsplit)
         == [field] + SplitWs(rest, if maxsplit > 0 then maxsplit - 1 else maxsplit)
  {
    var s := lead + field + rest;
    var i := LeadingSpaces(s);
    assert s[|lead|] == field[0];
    var r := s[i..];
    assert r == field + rest;
    var j := FieldEnd(r);
    assert forall k | 0 <= k < |field| :: r[k] == field[k];
    assert |field| < |r| ==> r[|field|] == rest[0];
    assert j == |field|;
    assert r[..j] == field && r[j..] == rest;
  }

  /** Once the limit is reached, whatever follows the blank run, if it is
      not blank, is the last field, unsplit. */
  lemma SplitWsRest(lead: string, tail: string)
    requires IsBlank(lead) && tail != "" && !IsSpace(tail[0])
    ensures SplitWs(lead + tail, 0) == [tail]
  {
    var s := lead + tail;
    var i := LeadingSpaces(s);
    assert s[|lead|] == tail[0];
    assert s[i..] == tail;
  }


  /** One split of a blank run, a field, a blank run and the rest. */
  lemma SplitWsTwo(s1: string, f1: string, s2: string, rest: string)
    requires f1 != "" && HasNoSpace(f1)
    requires IsBlank(s1) && s2 != "" && IsBlank(s2)
    requires rest != "" && !IsSpace(rest[0])
    ensures SplitWs(s1 + f1 + s2 + rest, 1) == [f1, rest]
  {
    var tail := s2 + rest;
    assert s1 + f1 + s2 + rest == s1 + f1 + tail;
    assert tail[0] == s2[0];
    SplitWsField(s1, f1, tail, 1);
    SplitWsRest(s2, rest);
  }

  /** Two splits of a line of three fields: the last field is the rest of
      the line. */
  lemma SplitWsThree(f0: string, s1: string, f1: string, s2: string, rest: string)
    requires f0 != "" && HasNoSpace(f0) && f1 != "" && HasNoSpace(f1)
    requires s1 != "" && IsBlank(s1) && s2 != "" && IsBlank(s2)
    requires rest != "" && !IsSpace(rest[0])
    ensures SplitWs(f0 + s1 + f1 + s2 + rest, 2) == [f0, f1, rest]
  {
    var tail := s1 + f1 + s2 + rest;
    assert "" + f0 == f0;
    assert f0 + s1 + f1 + s2 + rest == f0 + tail;
    assert tail[0] == s1[0];
    SplitWsField("", f0, tail, 2);
    SplitWsTwo(s1, f1, s2, rest);
  }


  function IndexOf(s: string, c: char): (k: nat)
    ensures k <= |s|
    ensures forall i | 0 <= i < k :: s[i] != c
    ensures k < |s| ==> s[k] == c
  {
    if s == [] || s[0] == c then 0 else 1 + IndexOf(s[1..], c)
  }

  /** `s.split(sep)` for a one-character separator: the pieces between
      separators, empty pieces included. */
  function SplitOn(s: string, sep: char): (pieces: seq<string>)
    ensures |pieces| >= 1
    ensures forall i | 0 <= i < |pieces| :: sep !in pieces[i]
    decreases |s|
  {
    var k := IndexOf(s, sep);
    if k == |s| then [s] else [s[..k]] + SplitOn(s[k + 1..], sep)
  }

  /** `sep.join(pieces)`. */
  function Join(pieces: seq<string>, sep: char): string {
    if pieces == [] then ""
    else if |pieces| == 1 then pieces[0]
    else pieces[0] + [sep] + Join(pieces[1..], sep)
  }

  lemma JoinCons(piece: string, rest: seq<string>, sep: char)
    requires rest != []
    ensures Join([piece] + rest, sep) == piece + [sep] + Join(rest, sep)
  {
    assert ([piece] + rest)[1..] == rest;
  }

  /** Splitting at a separator and joining the pieces with it gives back
      the text. */
  lemma {:induction false} JoinSplitOn(s: string, sep: char)
    ensures Join(SplitOn(s, sep), sep) == s
    decreases |s|
  {
    var k := IndexOf(s, sep);
    if k < |s| {
      var tail := s[k + 1..];
      assert SplitOn(s, sep) == [s[..k]] + SplitOn(tail, sep);
      JoinCons(s[..k], SplitOn(tail, sep), sep);
      JoinSplitOn(tail, sep);
      assert s == s[..k] + [sep] + tail;
    }
  }

  /** The first piece of `s.split(sep)` is the longest prefix of `s`
      without the separator. */
  lemma FirstPiece(s: string, sep: char)
    ensures StartsWith(s, SplitOn(s, sep)[0])
    ensures sep !in SplitOn(s, sep)[0]
    ensures |SplitOn(s, sep)[0]| < |s| ==> s[|SplitOn(s, sep)[0]|] == sep
  {
  }

  // ---------------------------------------------------------------------
  // numbers, ordering, paths

  function DigitChar(d: nat): char
    requires d < 10
  {
    ('0' as int + d) as char
  }

  /** The number a text of decimal digits denotes. */
  function DigitsValue(s: string): nat
    requires forall i | 0 <= i < |s| :: '0' <= s[i] <= '9'
  {
    if s == [] then 0 else 10 * DigitsValue(s[..|s| - 1]) + (s[|s| - 1] as int - '0' as int)
  }

  /** `str(n)` for a non-negative integer: decimal digits denoting `n`,
      without leading zeros. */
  function NatToString(n: nat): (s: string)
    ensures s != ""
    ensures forall i | 0 <= i < |s| :: '0' <= s[i] <= '9'
    ensures DigitsValue(s) == n
    ensures s[0] == '0' ==> s == "0"
    decreases n
  {
    if n < 10 then [DigitChar(n)]
    else
      var s := NatToString(n / 10) + [DigitChar(n % 10)];
      assert s[..|s| - 1] == NatToString(n / 10);
      s
  }

  /** `k` is where `a` and `b` part: they agree before `k`, and there `a`
      has ended while `b` goes on, or `a` has the smaller code point. */
  predicate PartsBelow(a: string, b: string, k: nat) {
    && k <= |a| && k <= |b| && a[..k] == b[..k]
    && ((k == |a| && k < |b|) || (k < |a| && k < |b| && a[k] < b[k]))
  }

  /** Dropping a common first character moves the parting point by one. */
  lemma PartsBelowTail(a: string, b: string)
    requires a != [] && b != [] && a[0] == b[0]
    ensures (exists k | 0 <= k <= |a| :: PartsBelow(a, b, k)) <==>
            (exists k | 0 <= k <= |a[1..]| :: PartsBelow(a[1..], b[1..], k))
  {
    if k :| 0 <= k <= |a| && PartsBelow(a, b, k) {
      assert k > 0;
      assert a[1..][..k - 1] == a[..k][1..];
      assert b[1..][..k - 1] == b[..k][1..];
      assert PartsBelow(a[1..], b[1..], k - 1);
    }
    if k :| 0 <= k <= |a[1..]| && PartsBelow(a[1..], b[1..], k) {
      assert a[..k + 1] == [a[0]] + a[1..][..k];
      assert b[..k + 1] == [b[0]] + b[1..][..k];
      assert PartsBelow(a, b, k + 1);
    }
  }

  /** Python's `a < b` on text: lexicographic by code point. */
  function Below(a: string, b: string): (r: bool)
    ensures r <==> exists k | 0 <= k <= |a| :: PartsBelow(a, b, k)
    decreases |a|
  {
    if a == [] then
      assert b != [] ==> PartsBelow(a, b, 0);
      b != []
    else if b == [] then false
    else if a[0] < b[0] then
      assert PartsBelow(a, b, 0);
      true
    else if a[0] > b[0] then false
    else
      PartsBelowTail(a, b);
      Below(a[1..], b[1..])
  }

  lemma {:induction false} BelowIrreflexive(a: string)
    ensures !Below(a, a)
    decreases |a|
  {
    if a != [] {
      BelowIrreflexive(a[1..]);
    }
  }

  lemma {:induction false} BelowTransitive(a: string, b: string, c: string)
    requires Below(a, b) && Below(b, c)
    ensures Below(a, c)
    decreases |a|
  {
    if a != [] && b != [] && c != [] && a[0] == b[0] == c[0] {
      BelowTransitive(a[1..], b[1..], c[1..]);
    }
  }

  lemma {:induction false} BelowTotal(a: string, b: string)
    ensures a == b || Below(a, b) || Below(b, a)
    decreases |a|
  {
    if a != [] && b != [] && a[0] == b[0] {
      BelowTotal(a[1..], b[1..]);
      if a[1..] == b[1..] {
        assert a == [a[0]] + a[1..] && b == [b[0]] + b[1..];
      }
    }
  }

  /** `os.path.isabs` on POSIX. */
  function IsAbsolute(path: string): (r: bool)
    ensures r <==> StartsWith(path, "/")
  {
    path != [] && path[0] == '/'
  }

  function LastSlashEnd(path: string): (k: nat)
    ensures k <= |path|
    ensures k > 0 ==> path[k - 1] == '/'
    ensures forall i | k <= i < |path| :: path[i] != '/'
  {
    if path == [] then 0
    else if path[|path| - 1] == '/' then |path|
    else LastSlashEnd(path[..|path| - 1])
  }

  /** `os.path.basename` on POSIX: the text after the last `/`. */
  function Basename(path: string): (b: string)
    ensures '/' !in b
    ensures exists k | 0 <= k <= |path| :: path[k..] == b
    // the longest such suffix: it starts right after the last '/'
    ensures |b| == |path| || path[|path| - |b| - 1] == '/'
  {
    var k := LastSlashEnd(path);
    assert forall i | 0 <= i < |path[k..]| :: path[k..][i] == path[k + i];
    path[k..]
  }
}

=== FILE: values.dfy ===
/** Dynamically typed values: what a parsed YAML document, or a rule's
    `params` mapping, may hold. Mapping keys are text; the code only ever
    looks keys up by text.
 */
module Values {

  datatype Value =
    | VNone
    | VBool(b: bool)
    | VInt(i: int)
    | VStr(s: string)
    | VList(items: seq<Value>)
    | VMap(entries: map<string, Value>)

  /** `d.get(key)`: the bound value, or `None` when the key is absent. */
  function Lookup(d: map<string, Value>, key: string): (v: Value)
    ensures key !in d ==> v == VNone
    ensures key in d ==> v == d[key]
  {
    if key in d then d[key] else VNone
  }

  /** The list of text values `[VStr(a0), VStr(a1), …]`. */
  function TextList(args: seq<string>): (v: Value)
    ensures v.VList? && |v.items| == |args|
    ensures forall i | 0 <= i < |args| :: v.items[i] == VStr(args[i])
  {
    VList(seq(|args|, i requires 0 <= i < |args| => VStr(args[i])))
  }
}
